=== FILE: README.md ===
# Hub reminders and thread membership, modelled in Dafny

This project models the core of the Hub package, a messaging and reminder
module for the Anchor framework. It has two parts.

**The reminder subsystem.**
- The reminder record has a status (pending, completed, snoozed, cancelled) and a repeat interval (none, daily, weekly, monthly, yearly).
- Its transitions are `complete`, `snooze`, `cancel` and `rescheduleNext`.
- Its query scopes are `due`, `pending`, `upcoming` and `forUser`.
- Two passes process the due reminders:
  - the `hub:remind` console command, which is bounded by `--limit`, isolates each item in its own `try`, and counts successes and failures;
  - the manager service's `processDueReminders`, which has no bound and no isolation.

**Threads, membership, reactions and mentions.**
- The member roles and their permissions.
- Idempotent `addMember`; `removeMember`, which never removes an owner; `createThread`, which makes the creator the owner.
- Reactions: add, remove, toggle and per-emoji counts.
- The unread count.
- Message posting with explicit or parsed mentions.
- The four fluent builders: reminder, member, thread and message.

Every record is an immutable datatype, and every table is a sequence of rows.
Each operation is a pure function from the old table to the new one, or a
method when it is a loop. The unique indexes of the schema become invariants
that the operations preserve:
- `(thread_id, user_id)` on members;
- `(message_id, user_id, emoji)` on reactions;
- `(message_id, user_id)` on mentions;
- `refid` on reminders.

Time is an integer count of seconds. `now` is always a parameter.

Some values come from outside the code and are parameters:
- new row ids and random refids;
- the configured default for notifications;
- the month and year arithmetic of the date helper, as the `Calendar` record;
- the mention parser;
- which event dispatch or save throws in the two reminder passes, as the `Fault` function.

## Where the code and its description differ

The model follows the code.
- `--limit 0` and `--limit=` do not mean "process nothing". `?: 100` turns them into 100 (`RemindCommand.LimitOfWrittenInteger`). Only a truthy text gives a limit of 0 or less, and the limit is then that text's integer cast: `00` and `abc` give 0, and `-5` gives -5 (`RemindCommand.NonPositiveLimitOnlyFromTruthyText`).
- The event dispatch and the transition share one `try`. A dispatch that throws leaves the reminder untouched and counts it as failed. A save that throws counts as failed after the event has already gone out (`DuePass.ItemResult`).
- `rescheduleNext` counts the next occurrence from the old `remind_at`, not from `now`. A daily reminder that is more than a day overdue is therefore still due after a pass, so a second pass at the same instant processes it again (`Reminders.OverdueDailyStaysDue`). Processing is not idempotent.
- `isDue` uses a strict comparison and the `due` scope uses `<=`. The two disagree exactly when the effective time equals `now` (`Reminders.IsDueVersusDueScope`).

## Model

| member | source | states |
|---|---|---|
| ReminderStatus.From | Enums/ReminderStatus.php:15-20 | parsing yields a case whose backing value is the text, and yields nothing exactly when no case has that value |
| ReminderStatus.FromValue | Enums/ReminderStatus.php:17-20 | parsing a case's backing value gives that case back |
| ReminderStatus.ValueInjective | Enums/ReminderStatus.php:17-20 | the four backing values are pairwise distinct |
| ReminderStatus.Label | Enums/ReminderStatus.php:22-30 | every status has a non-empty label |
| ReminderStatus.LabelInjective | Enums/ReminderStatus.php:22-30 | no two statuses share a label |
| ReminderStatus.IsActive | Enums/ReminderStatus.php:35-38 | a status is active exactly when it is neither completed nor cancelled |
| RepeatInterval.From | Enums/RepeatInterval.php:15-21 | parsing is the inverse of the backing value, and an unknown string has no case |
| RepeatInterval.FromValue | Enums/RepeatInterval.php:17-21 | parsing a case's backing value gives that case back |
| RepeatInterval.ValueInjective | Enums/RepeatInterval.php:17-21 | the five backing values are pairwise distinct |
| RepeatInterval.Label | Enums/RepeatInterval.php:23-32 | every interval has a non-empty label, and "none" reads "Does not repeat" |
| RepeatInterval.LabelInjective | Enums/RepeatInterval.php:23-32 | no two intervals share a label |
| RepeatInterval.Repeats | Enums/RepeatInterval.php:37-40 | an interval repeats exactly when it is daily, weekly, monthly or yearly, so the fallback arm of `rescheduleNext` is dead |
| ThreadRole.From | Enums/ThreadRole.php:15-20 | parsing is the inverse of the backing value, and an unknown string has no role |
| ThreadRole.FromValue | Enums/ThreadRole.php:17-20 | parsing a role's backing value gives that role back |
| ThreadRole.ValueInjective | Enums/ThreadRole.php:17-20 | the four backing values are pairwise distinct |
| ThreadRole.Label | Enums/ThreadRole.php:22-30 | every role has a non-empty label |
| ThreadRole.LabelInjective | Enums/ThreadRole.php:22-30 | no two roles share a label |
| ThreadRole.CanManageMembers | Enums/ThreadRole.php:32-35 | members and guests may not manage members, and every other role may |
| ThreadRole.CanDeleteThread | Enums/ThreadRole.php:37-40 | whoever may delete a thread may also manage members, and the admin alone manages without deleting |
| Reminders.IsDue | Models/Reminder.php:77-86 | an inactive reminder is never due; otherwise it is due when the snooze end, if set, or else the scheduled time lies strictly before now |
| Reminders.Repeats | Models/Reminder.php:88-91 | a reminder repeats exactly when its interval is present and is daily, weekly, monthly or yearly; a missing interval and "none" do not repeat |
| Reminders.DueScopeByEffectiveTime | Models/Reminder.php:152-163 | the SQL condition of the due scope means "active and the effective time is not after now" |
| Reminders.IsDueVersusDueScope | Models/Reminder.php:77-86 | `isDue` implies the due scope, and the two differ exactly when the effective time equals now |
| Reminders.Complete | Models/Reminder.php:93-99 | the status becomes completed at now; the reminder is never due again; payload, schedule, snooze end and counter are unchanged |
| Reminders.Snooze | Models/Reminder.php:101-108 | the status becomes snoozed; the counter grows by one, with null read as 0; the reminder becomes due exactly when the snooze ends, whatever its scheduled time |
| Reminders.SnoozeDefault | Models/Reminder.php:101 | with no argument the snooze lasts 15 minutes |
| Reminders.SnoozeTwice | Models/Reminder.php:101-108 | two snoozes add two to the counter, and the second snooze end replaces the first |
| Reminders.Cancel | Models/Reminder.php:110-113 | only the status changes, to cancelled, and the reminder is never due again |
| Reminders.NextOccurrence | Models/Reminder.php:124-130 | there is a next date exactly for a repeating interval: a day or a week later, or the calendar's next month or year |
| Reminders.RescheduleNext | Models/Reminder.php:118-140 | the identity for a non-repeating reminder; otherwise pending at the next occurrence of the old scheduled time, with no snooze and a zero counter |
| Reminders.RescheduleIgnoresSnooze | Models/Reminder.php:124-139 | the rescheduled reminder does not depend on the status, snooze end or counter before the call |
| Reminders.Advance | Commands/HubRemindCommand.php:60-64 | a repeating reminder is rescheduled and becomes pending; any other is completed and never due again |
| Reminders.OverdueDailyStaysDue | Models/Reminder.php:124-125 | a daily reminder at least a day overdue is still in the due scope after being processed |
| Reminders.RecentDailyLeavesDueSet | Models/Reminder.php:124-125 | a daily reminder less than a day overdue leaves the due scope once processed |
| Reminders.Due | Models/Reminder.php:152-163 | the scope keeps exactly the active rows whose effective time is not after now, and never a completed or cancelled one |
| Reminders.DueMultiplicity | Models/Reminder.php:152-163 | the due scope keeps each active row whose effective time is not after now as often as the table holds it, and no other row |
| Reminders.PendingOnly | Models/Reminder.php:165-168 | the scope keeps exactly the pending rows, each as often as the table holds it |
| Reminders.ForUser | Models/Reminder.php:147-150 | the scope keeps exactly the rows of the user, each as often as the table holds it |
| Reminders.SortByTime | Models/Reminder.php:176 | the result is ascending by scheduled time and a permutation of the input |
| Reminders.Upcoming | Models/Reminder.php:170-177 | exactly the pending rows scheduled within the window, earliest first, each as often as the table holds it (a permutation of the selected rows) |
| Reminders.UpcomingWeek | Models/Reminder.php:170 | the default window is seven days |
| PhpCast.IntCast | Commands/HubRemindCommand.php:40 | the integer cast always lands in the 64-bit range |
| PhpCast.IntCastOfText | Commands/HubRemindCommand.php:40 | casting the decimal text of any 64-bit integer gives that integer back |
| PhpCast.NonNumericCastsToZero | Commands/HubRemindCommand.php:40 | a text that does not start with whitespace, a sign or a digit casts to 0 |
| PhpCast.Truthy | Commands/HubRemindCommand.php:40 | the empty string and "0" are falsy; every other one-character string and every longer string, "00" included, is truthy |
| RemindCommand.EffectiveLimit | Commands/HubRemindCommand.php:31-40 | a missing, valueless, empty or "0" option gives 100; a truthy text gives its integer cast |
| RemindCommand.LimitOfWrittenInteger | Commands/HubRemindCommand.php:40 | `--limit=0` gives 100, and any other written integer gives itself |
| RemindCommand.NonPositiveLimitOnlyFromTruthyText | Commands/HubRemindCommand.php:40 | a limit of 0 or less comes only from a truthy text, and equals that text's integer cast |
| RemindCommand.Fetch | Commands/HubRemindCommand.php:43-44 | at most `limit` rows of the due scope, all of them due, and all of the due rows when fewer than `limit` exist; a limit below one fetches nothing |
| DuePass.ItemResult | Commands/HubRemindCommand.php:57-71 | an item that throws leaves its reminder unchanged; an item that does not throw reschedules or completes it |
| RemindCommand.ProcessBatch | Commands/HubRemindCommand.php:53-73 | success plus failed equals the number fetched; success counts the items that did not throw; every item gets its own outcome; the events that went out are exactly those whose dispatch did not throw |
| RemindCommand.Execute | Commands/HubRemindCommand.php:34-89 | FAILURE exactly when an exception escapes the per-item `try`, modelled as the due query throwing; otherwise SUCCESS even with failed items; "none found" exactly when nothing was fetched; each closing notice shows exactly when its counter is positive |
| Members.CanManage | Models/ThreadMember.php:71-74 | the member may manage exactly when owner or admin; no role, no permission |
| Members.IsOwner | Models/ThreadMember.php:61-64 | the member is an owner exactly when it has a role and that role may delete the thread |
| Members.IsAdmin | Models/ThreadMember.php:66-69 | the member is an admin exactly when its role may manage members but not delete the thread; an admin is never an owner |
| Members.MarkAsRead | Models/ThreadMember.php:76-79 | only the read marker changes, to now |
| Members.ToggleNotifications | Models/ThreadMember.php:81-84 | only the flag changes, to its negation |
| Members.ToggleTwice | Models/ThreadMember.php:81-84 | toggling twice is the identity |
| Members.SetRole | Models/ThreadMember.php:86-89 | only the role changes, and ownership and management follow the new role |
| Threads.GetMember | Models/Thread.php:84-87 | a row is returned exactly when the user has one in the thread, and it is that user's row |
| Threads.HasMember | Models/Thread.php:79-82 | true exactly when some member row of the thread has the user |
| Threads.UniqueRow | Models/Thread.php:84-87 | under the unique index, the row found is the user's only row |
| Threads.RemoveMember | Models/Thread.php:94-100 | an owner's row and every other user's row are kept; a non-owner's row goes; the unique index is preserved |
| Threads.UnreadCount | Models/Thread.php:107-117 | every message is unread for a non-member or a member who never read; otherwise only those created after the read marker; never more than the total |
| Threads.MessageCount | Models/Thread.php:102-105 | never more than the table holds, and zero exactly when no message belongs to the thread |
| Threads.MessageCountAfterPost | Models/Thread.php:102-105 | writing one more message raises the count by one exactly when the message belongs to the thread |
| Threads.NothingUnreadAfterLatest | Models/Thread.php:114-116 | a read marker no earlier than every message leaves nothing unread |
| Threads.Pin | Models/Thread.php:119-122 | only the flag changes, to true |
| Threads.Unpin | Models/Thread.php:124-127 | only the flag changes, to false |
| Threads.PinIdempotent | Models/Thread.php:119-127 | pinning or unpinning twice is doing it once |
| Threads.ForUser | Models/Thread.php:140-147 | exactly the threads in which the user has a member row |
| Threads.ForResource | Models/Thread.php:134-138 | exactly the threads attached to the given resource |
| Threads.PinnedOnly | Models/Thread.php:149-152 | exactly the pinned threads |
| Messages.Pin | Models/Message.php:97-100 | only the flag changes, to true |
| Messages.Unpin | Models/Message.php:102-105 | only the flag changes, to false |
| Messages.PinIdempotent | Models/Message.php:97-105 | pinning or unpinning twice is doing it once |
| Messages.IsReply | Models/Message.php:92-95 | a message is a reply exactly when it has a parent |
| Messages.HasReactionCounted | Models/Message.php:110-129 | the reaction exists exactly when some reaction row of the message has that user and emoji, and then that emoji's count is at least one |
| Messages.Bump | Models/Message.php:125 | one emoji's count grows by one, or a new entry with count 1 is appended; no other count changes |
| Messages.Tally | Models/Message.php:123-126 | one entry per emoji seen, each with the number of reactions using it, adding up to the number of reactions |
| Messages.ReactionCounts | Models/Message.php:118-129 | keys are exactly the emojis used on the message; each count is positive and equals that emoji's reactions; the counts add up to the message's reactions |
| Messages.RootOnly | Models/Message.php:146-149 | exactly the messages that are not replies |
| Messages.InThread | Models/Message.php:136-139 | exactly the messages of the thread |
| Messages.PinnedOnly | Models/Message.php:141-144 | exactly the pinned messages |
| HubManager.AddMember | Services/HubManagerService.php:70-84 | an existing row is returned and nothing is written; otherwise exactly one row with the role is appended; membership of every other user is unchanged |
| HubManager.AddMemberIdempotent | Services/HubManagerService.php:70-75 | adding a member twice is adding once, whatever the second call asks for |
| HubManager.RemoveUndoesAdd | Services/HubManagerService.php:86-92 | removing a newly added non-owner restores the table; a newly added owner survives removal |
| HubManager.CreateThread | Services/HubManagerService.php:39-63 | the thread takes the input with its defaults; members become the old ones plus the creator and the listed users; in a new thread only the creator is owner and the rest are plain members |
| HubManager.CreatorIsOwner | Services/HubManagerService.php:51-54 | the creator of a new thread is its owner |
| HubManager.ListedUserIsMember | Services/HubManagerService.php:56-63 | a listed user other than the creator joins as a plain member who cannot manage |
| HubManager.MarkAsRead | Services/HubManagerService.php:189-195 | only the user's read marker moves, to now; a non-member changes nothing |
| HubManager.NothingUnreadAfterMarking | Services/HubManagerService.php:189-195 | after marking read at a time no earlier than every message, the unread count is 0 |
| HubManager.AddReaction | Services/HubManagerService.php:136-148 | an existing reaction gives null and no write; otherwise exactly the new row is appended; the unique index is preserved |
| HubManager.RemoveReaction | Services/HubManagerService.php:150-156 | exactly the rows of that message, user and emoji go; every other reaction stays |
| HubManager.FilterKeepsReactionsUnique | Services/HubManagerService.php:150-156 | deleting rows keeps the reaction unique index |
| HubManager.ToggleReaction | Services/HubManagerService.php:158-169 | true exactly when the reaction was absent; its presence flips; no other reaction changes |
| HubManager.ToggleTwiceRestores | Services/HubManagerService.php:158-169 | toggling twice restores the set of reactions, and the table itself when the reaction was absent |
| HubManager.InsertMentions | Services/HubManagerService.php:111-118 | the loop only appends, at most one row per id, and a complete run appends one row for every id |
| HubManager.InsertMentionsRows | Services/HubManagerService.php:111-118 | every row written belongs to the message and to a listed id; a complete run writes exactly the listed ids' rows, in order |
| HubManager.InsertMentionsUnique | Services/HubManagerService.php:111-118 | the loop never breaks the unique index of mentions |
| HubManager.InsertMentionsOutcome | Services/HubManagerService.php:111-118 | the loop completes exactly when the ids are distinct and new, and otherwise stops at an id whose row exists |
| HubManager.PostMessage | Services/HubManagerService.php:97-123 | a null thread or sender writes nothing; otherwise the message is appended with its defaults, and every mention is stored exactly when the mention list is free of clashes |
| HubManager.ExplicitMentionsIgnoreParser | Services/HubManagerService.php:110 | with an explicit mention list the body parser plays no part |
| HubManager.CreateReminder | Services/HubManagerService.php:171-184 | the new reminder is always pending, with no snooze and a zero counter, repeats "none" unless told otherwise, and keeps the refid index unique; a null time or a taken refid fails |
| HubManager.CreatedReminderSchedule | Services/HubManagerService.php:171-184 | a new reminder enters the due scope at its scheduled time, and repeats exactly when a repeating interval was given |
| HubManager.ProcessDueReminders | Services/HubManagerService.php:197-215 | with no fault every due reminder is advanced and the count is their number; the first throw ends the pass and leaves the later reminders untouched |
| HubManager.UpcomingForUser | Services/HubManagerService.php:236-242 | exactly the user's pending reminders scheduled within the window, earliest first, each as often as the table holds it (a permutation of the selected rows) |
| ReminderBuilder.New | Services/Builders/ReminderBuilder.php:23-35 | `create` on a fresh builder fails because no user is set, whatever the table holds; the fresh builder describes a one-off reminder with an empty message and no metadata |
| ReminderBuilder.For | Services/Builders/ReminderBuilder.php:45-50 | the user is set, and nothing else changes |
| ReminderBuilder.About | Services/Builders/ReminderBuilder.php:55-61 | the resource class and id are set, and nothing else changes |
| ReminderBuilder.SetMessage | Services/Builders/ReminderBuilder.php:63-68 | the message is set, and nothing else changes |
| ReminderBuilder.RepeatWith | Services/Builders/ReminderBuilder.php:124-133 | an enum case sets the interval verbatim, and nothing else changes |
| ReminderBuilder.Daily | Services/Builders/ReminderBuilder.php:135-140 | the interval becomes the repeating daily case, and nothing else changes |
| ReminderBuilder.Weekly | Services/Builders/ReminderBuilder.php:142-147 | the interval becomes the repeating weekly case, and nothing else changes |
| ReminderBuilder.Monthly | Services/Builders/ReminderBuilder.php:149-154 | the interval becomes the repeating monthly case, and nothing else changes |
| ReminderBuilder.SetMetadata | Services/Builders/ReminderBuilder.php:156-161 | the whole metadata bag is replaced, and nothing else changes |
| ReminderBuilder.InMinutes | Services/Builders/ReminderBuilder.php:83-88 | the time becomes now plus the minutes, and nothing else changes |
| ReminderBuilder.InHours | Services/Builders/ReminderBuilder.php:93-98 | the time becomes now plus the hours, and nothing else changes |
| ReminderBuilder.InDays | Services/Builders/ReminderBuilder.php:103-108 | the time becomes now plus the days, and nothing else changes |
| ReminderBuilder.At | Services/Builders/ReminderBuilder.php:73-78 | the time is set verbatim, and nothing else changes |
| ReminderBuilder.RelativeSettersAgree | Services/Builders/ReminderBuilder.php:83-108 | with fixed-length days, as in a zone without daylight-saving shifts, n hours equal 60n minutes and n days equal 24n hours |
| ReminderBuilder.Repeat | Services/Builders/ReminderBuilder.php:124-133 | a known backing value sets that interval; any other text fails |
| ReminderBuilder.LastIntervalWins | Services/Builders/ReminderBuilder.php:124-154 | each interval setter overwrites the last |
| ReminderBuilder.With | Services/Builders/ReminderBuilder.php:166-171 | one metadata key is set, and every other key is kept |
| ReminderBuilder.MetadataReplacesWith | Services/Builders/ReminderBuilder.php:156-171 | `metadata` replaces the whole bag, including keys set by `with` |
| ReminderBuilder.Create | Services/Builders/ReminderBuilder.php:173-184 | the accumulated fields become the reminder unchanged; an unset user or time fails |
| ReminderBuilder.NewDraftDefaults | Services/Builders/ReminderBuilder.php:23-35 | a fresh builder given a user and a time creates a one-off reminder with an empty message, no metadata and no resource |
| ReminderBuilder.InMinutesFiresLater | Services/Builders/ReminderBuilder.php:83-88 | a reminder set some minutes ahead is not due now, and enters the due scope when they are up |
| MemberBuilder.New | Services/Builders/MemberBuilder.php:22-30 | a fresh builder targets the given thread and user, with a role that may neither manage members nor delete the thread, and notifications on |
| MemberBuilder.AsOwner | Services/Builders/MemberBuilder.php:35-40 | the role becomes owner, and nothing else changes |
| MemberBuilder.AsAdmin | Services/Builders/MemberBuilder.php:45-50 | the role becomes admin, and nothing else changes |
| MemberBuilder.AsMember | Services/Builders/MemberBuilder.php:55-60 | the role becomes member, and nothing else changes |
| MemberBuilder.AsGuest | Services/Builders/MemberBuilder.php:65-70 | the role becomes guest, and nothing else changes |
| MemberBuilder.Silent | Services/Builders/MemberBuilder.php:75-80 | notifications are turned off, and nothing else changes |
| MemberBuilder.WithNotifications | Services/Builders/MemberBuilder.php:85-90 | notifications are turned on, and nothing else changes |
| MemberBuilder.LastSetterWins | Services/Builders/MemberBuilder.php:35-90 | the last role setter and the last notification setter win, independently |
| MemberBuilder.Add | Services/Builders/MemberBuilder.php:95-109 | an existing row is returned unchanged; otherwise a row with exactly the chosen role and flag is appended |
| MemberBuilder.AddIgnoresChoicesForMembers | Services/Builders/MemberBuilder.php:97-100 | for an existing member, no builder choice changes the result |
| MemberBuilder.NewDraftAddsPlainMember | Services/Builders/MemberBuilder.php:22-24 | a fresh builder adds a plain member with notifications on |
| ThreadBuilder.New | Services/Builders/ThreadBuilder.php:21-33 | a fresh builder has no resource, no title, no members, no metadata and no creator, and is not pinned |
| ThreadBuilder.NewDraftCreatesBareThread | Services/Builders/ThreadBuilder.php:21-33 | creating from a fresh builder gives an untitled, unpinned thread with no resource, no metadata and no creator, and adds no member row |
| ThreadBuilder.On | Services/Builders/ThreadBuilder.php:43-49 | the resource class and id are set, and nothing else changes |
| ThreadBuilder.Title | Services/Builders/ThreadBuilder.php:51-56 | the title is set, and nothing else changes |
| ThreadBuilder.AddMember | Services/Builders/ThreadBuilder.php:68-75 | the user is listed afterwards, an already listed user changes nothing, and a duplicate-free list stays duplicate-free |
| ThreadBuilder.AddMembers | Services/Builders/ThreadBuilder.php:68-75 | any run of `addMember` keeps the list duplicate-free, lists exactly the users seen, and changes nothing else |
| ThreadBuilder.Pinned | Services/Builders/ThreadBuilder.php:80-85 | the thread will be pinned, and nothing else changes |
| ThreadBuilder.SetMetadata | Services/Builders/ThreadBuilder.php:87-92 | the whole metadata bag is replaced, and nothing else changes |
| ThreadBuilder.By | Services/Builders/ThreadBuilder.php:107-112 | the creator is set, and nothing else changes |
| ThreadBuilder.SetMembers | Services/Builders/ThreadBuilder.php:61-66 | the list is replaced verbatim |
| ThreadBuilder.With | Services/Builders/ThreadBuilder.php:97-102 | one metadata key is set, and every other key is kept |
| ThreadBuilder.MetadataReplacesWith | Services/Builders/ThreadBuilder.php:87-102 | `metadata` replaces the whole bag |
| ThreadBuilder.Create | Services/Builders/ThreadBuilder.php:114-125 | the thread takes the accumulated fields unchanged, and the creator and every listed user become members |
| ThreadBuilder.CreatorListedStaysOwner | Services/Builders/ThreadBuilder.php:107-125 | a creator who is also listed as a member is still the owner |
| MessageBuilder.New | Services/Builders/MessageBuilder.php:21-33 | `send` rejects a fresh builder, whatever the tables hold; it mentions nobody and is not pinned |
| MessageBuilder.In | Services/Builders/MessageBuilder.php:43-48 | the thread becomes the given thread's id, and nothing else changes |
| MessageBuilder.InThread | Services/Builders/MessageBuilder.php:50-55 | the thread id is set, and nothing else changes |
| MessageBuilder.ReplyTo | Services/Builders/MessageBuilder.php:60-66 | the parent becomes the message, and the thread becomes that message's thread |
| MessageBuilder.From | Services/Builders/MessageBuilder.php:71-76 | the sender is set, and nothing else changes |
| MessageBuilder.Body | Services/Builders/MessageBuilder.php:78-83 | the body is set, and nothing else changes |
| MessageBuilder.SetMentions | Services/Builders/MessageBuilder.php:88-93 | the mention list is replaced verbatim, duplicates included, and nothing else changes |
| MessageBuilder.Mention | Services/Builders/MessageBuilder.php:95-102 | the user is mentioned afterwards, a repeat changes nothing, and a duplicate-free list stays duplicate-free |
| MessageBuilder.MentionAll | Services/Builders/MessageBuilder.php:95-102 | any run of `mention` keeps the list duplicate-free, mentions exactly the users seen, and changes nothing else |
| MessageBuilder.Pinned | Services/Builders/MessageBuilder.php:107-112 | the message will be pinned, and nothing else changes |
| MessageBuilder.SetMetadata | Services/Builders/MessageBuilder.php:114-119 | the whole metadata bag is replaced, and nothing else changes |
| MessageBuilder.With | Services/Builders/MessageBuilder.php:124-129 | one metadata key is set, and every other key is kept |
| MessageBuilder.MetadataReplacesWith | Services/Builders/MessageBuilder.php:114-129 | `metadata` replaces the whole bag |
| MessageBuilder.Send | Services/Builders/MessageBuilder.php:131-142 | a missing thread or sender posts nothing; otherwise the message takes the accumulated fields, and a post without a clash stores one mention row per listed user |
| MessageBuilder.SendIgnoresParser | Services/Builders/MessageBuilder.php:131-142 | `send` always passes a mention list, so the body is never parsed |
| MessageBuilder.MentionedDraftPosts | Services/Builders/MessageBuilder.php:95-102 | a message built with `mention` calls stores all its mentions without a clash |

## Left out

- Persistence, the query builder and the ORM: tables are sequences of rows. The auto-increment ids, `updated_at`, the `id` of a reminder and the `created_at` of threads and reminders are not modelled. The `created_at` of messages and reactions and the `joined_at` of members are modelled as the `now` the service passes.
- HubManager.AddReaction: the model assumes the ORM stores the `created_at` the service passes. The reaction model leaves `created_at` out of its fillable fields and turns timestamps off, while the column is NOT NULL with no default; under strict mass assignment that insert, and the add branch of HubManager.ToggleReaction, would fail instead.
- HubManager.RemoveReaction: the model assumes the three reaction scopes `onMessage`, `byUser` and `withEmoji` (Models/Reaction.php:52-65) narrow the query as their names say, so the delete removes exactly the rows of that message, user and emoji; the same holds for the remove branch of HubManager.ToggleReaction. Unlike every other scope in the package, these three take no query-builder first parameter and declare a `: static` return type, so depending on how the ORM dispatches scopes the call may instead throw a type error and delete nothing. The ORM's scope dispatch is not part of this model, so that outcome is not modelled.
- Event dispatch, the listeners and the mail notifications. In the two reminder passes a dispatch is an abstract call that may throw, given by the `Fault` parameter; elsewhere dispatch is not modelled.
- HubManager.CreateThread: the `ThreadCreatedEvent` dispatched after the rows are written is not modelled. A listener that throws leaves the rows in place and raises, but the model always returns normally.
- HubManager.PostMessage: the `UserMentionedEvent` and `MessagePostedEvent` dispatched after the rows are written are not modelled. A listener that throws leaves the rows in place and raises, but the model always returns normally.
- `parseMentions`: it relies on PCRE with a configurable pattern, so the parser is a function parameter. It returns user ids here, while the source stores whatever words the pattern captures.
- The date helper: month and year steps come from the `Calendar` parameter, and a day, a week, an hour and a minute are fixed second counts, so daylight-saving shifts are not modelled.
- `tomorrow` on the reminder builder: it depends on the date helper's `setHour`/`setMinute`.
- The builders' `about` and `on` take the class name and id of a model object; the model takes the name and id directly.
- The secure random `refid`: it is a parameter. A clash with an existing refid fails the insert for reminders only.
- HubManager.CreateThread and HubManager.PostMessage: `hub_thread.refid` and `hub_message.refid` are unique too, but the model accepts any refid for threads and messages.
- Messages.ReactionCounts, Messages.HasReaction, HubManager.AddReaction, HubManager.RemoveReaction and HubManager.ToggleReaction: emoji keys are compared by exact equality of characters. The column collation and the 32-character limit of the `emoji` column are not modelled.
- The analytics service, the console I/O and progress output, the facade, the service provider, the schedule, the setup script and the configuration file.
- `max_snooze_count`: it is configured but never enforced, so no cap is modelled.
- `getThreadsForUser` and `getMessages`: these are ordering and paging queries with no logic of their own.
- PhpCast.IntCast: exponent and fractional forms such as "1e3" are not modelled; only optional whitespace, a sign and a digit run are.
- RemindCommand.Fetch: a limit below one is modelled as fetching no rows, because the query builder's treatment of a zero or negative limit is not part of this model.
- RemindCommand.Fetch: the query has no ORDER BY, so the database may return any `limit` of the due rows. The model fixes one order, the table order, and takes a prefix of it.
- RemindCommand.ProcessBatch: it does not state what an item that throws writes to the log or the console.
- RemindCommand.Execute: a console or log call inside the per-item `catch` that itself throws is not modelled. In the source that exception escapes to the outer `catch`, ends the loop part-way and exits with FAILURE after some reminders were already advanced.
- HubManager.CreateReminder: a repeat interval given as a string that is not a backing value is not modelled; the input is the enum case.
- HubManager.PostMessage: the thread and parent foreign keys are not checked.
- Reminders.IsDue: the status and `remind_at` are modelled as non-null, as their columns are, so the null-safe branches of `isDue` and `repeats` are not modelled.
- Reminders.Upcoming: it states that the rows are ascending and that it selects exactly the right rows; the order among rows with equal times is left open, as it is in SQL.

=== FILE: common.dfy ===
/** Shared vocabulary of the hub model: optional values, timestamps,
    metadata bags and a few sequence utilities used by every table filter. */
module Common {

  /** A nullable value, as PHP's `?T`. */
  datatype Option<+T> = None | Some(value: T) {
    /** PHP's null-coalescing `$x ?? default`. */
    function OrElse(default: T): T {
      match this
      case Some(v) => v
      case None => default
    }
  }

  /** The outcome of an operation that can fail with an error of type `E`. */
  datatype Result<+T, +E> = Ok(value: T) | Err(error: E)

  /** A timestamp in whole seconds. */
  type Time = int

  const SecondsPerMinute: int := 60
  const SecondsPerHour: int := 3600
  const SecondsPerDay: int := 86400
  const SecondsPerWeek: int := 604800

  /** A scalar value stored in a JSON metadata column. */
  datatype MetaValue = MetaNull | MetaBool(b: bool) | MetaInt(i: int) | MetaString(s: string)

  /** The `metadata` JSON column: an open key-value bag. */
  type Metadata = map<string, MetaValue>

  /** PHP's `$metadata[$key] = $value`: the key is set, every other key keeps
      its value, and no key appears or disappears besides it. */
  function WithKey(m: Metadata, k: string, v: MetaValue): (r: Metadata)
    ensures k in r && r[k] == v
    ensures forall j :: j != k ==> (j in r <==> j in m)
    ensures forall j :: j != k && j in m ==> r[j] == m[j]
    ensures |r.Keys| == if k in m then |m.Keys| else |m.Keys| + 1
  {
    var r := m[k := v];
    assert r.Keys == m.Keys + {k};
    r
  }

  /** The elements of `s` that satisfy `p`, in their original order. */
  function Filter<T>(s: seq<T>, p: T -> bool): (r: seq<T>)
    ensures |r| <= |s|
    ensures forall i :: 0 <= i < |r| ==> p(r[i])
  {
    if |s| == 0 then []
    else if p(s[0]) then [s[0]] + Filter(s[1..], p)
    else Filter(s[1..], p)
  }

  /** The filtered sequence holds exactly the elements of `s` that pass. */
  lemma {:induction false} FilterContents<T>(s: seq<T>, p: T -> bool)
    ensures forall x :: x in Filter(s, p) <==> x in s && p(x)
  {
    if |s| > 0 {
      FilterContents(s[1..], p);
      assert s == [s[0]] + s[1..];
    }
  }

  /** Filtering a sequence extended at the end extends the filtered sequence
      at the end, by that element exactly when it passes. */
  lemma {:induction false} FilterAppend<T>(s: seq<T>, x: T, p: T -> bool)
    ensures Filter(s + [x], p) == Filter(s, p) + (if p(x) then [x] else [])
  {
    if |s| == 0 {
      assert s + [x] == [x];
      assert [x][1..] == [];
    } else {
      assert (s + [x])[0] == s[0];
      assert (s + [x])[1..] == s[1..] + [x];
      FilterAppend(s[1..], x, p);
    }
  }

  /** A filter that every element passes keeps the whole sequence. */
  lemma {:induction false} FilterAll<T>(s: seq<T>, p: T -> bool)
    requires forall i :: 0 <= i < |s| ==> p(s[i])
    ensures Filter(s, p) == s
  {
    if |s| > 0 {
      FilterAll(s[1..], p);
    }
  }

  /** When no element passes, the filter keeps nothing. */
  lemma {:induction false} FilterNone<T>(s: seq<T>, p: T -> bool)
    requires forall i :: 0 <= i < |s| ==> !p(s[i])
    ensures Filter(s, p) == []
  {
    if |s| > 0 {
      FilterNone(s[1..], p);
    }
  }

  /** The filter keeps every passing element as often as `s` holds it, and
      no other element. */
  lemma {:induction false} FilterMultiset<T>(s: seq<T>, p: T -> bool)
    ensures forall x :: multiset(Filter(s, p))[x] == if p(x) then multiset(s)[x] else 0
  {
    if |s| > 0 {
      FilterMultiset(s[1..], p);
      assert s == [s[0]] + s[1..];
      assert multiset(s) == multiset{s[0]} + multiset(s[1..]);
    }
  }

  /** Filtering by `p` and then by `q` is filtering once by their conjunction `r`. */
  lemma {:induction false} FilterFilter<T>(s: seq<T>, p: T -> bool, q: T -> bool, r: T -> bool)
    requires forall x :: r(x) == (p(x) && q(x))
    ensures Filter(Filter(s, p), q) == Filter(s, r)
  {
    if |s| > 0 {
      FilterFilter(s[1..], p, q, r);
    }
  }

  /** No value occurs twice in `s`. */
  predicate Distinct<T(==)>(s: seq<T>) {
    forall i, j :: 0 <= i < j < |s| ==> s[i] != s[j]
  }

  /** A non-empty sequence is free of duplicates exactly when its head does
      not recur and its tail is free of duplicates. */
  lemma DistinctCons<T>(s: seq<T>)
    requires |s| > 0
    ensures Distinct(s) <==> s[0] !in s[1..] && Distinct(s[1..])
  {
    if s[0] !in s[1..] && Distinct(s[1..]) {
      forall i, j | 0 <= i < j < |s| ensures s[i] != s[j] {
        assert s[j] == s[1..][j - 1];
        if i > 0 { assert s[i] == s[1..][i - 1]; }
      }
    }
    if Distinct(s) {
      forall i, j | 0 <= i < j < |s[1..]| ensures s[1..][i] != s[1..][j] {
        assert s[1..][i] == s[i + 1] && s[1..][j] == s[j + 1];
      }
    }
  }

  /** PHP's `if (!in_array($x, $list, true)) { $list[] = $x; }`. */
  function AppendIfAbsent<T(==,!new)>(s: seq<T>, x: T): (r: seq<T>)
    ensures x in r
    ensures forall y :: y in r <==> y in s || y == x
    ensures x in s ==> r == s
    ensures x !in s ==> r == s + [x]
    ensures Distinct(s) ==> Distinct(r)
  {
    if x in s then s else s + [x]
  }
}

=== FILE: due_pass.dfy ===
/** What happens to one due reminder in a processing pass, shared by the
    `hub:remind` command and the manager service's `processDueReminders`.
    The event dispatch and the database write are calls into code this model
    does not see; `Fault` says which of them, if any, throws for a reminder. */
module DuePass {
  import opened Common
  import opened Reminders

  datatype Fault =
    | NoFault         // the event is dispatched and the transition is saved
    | DispatchThrows  // `Event::dispatch` throws before any transition
    | SaveThrows      // the event is dispatched, then the `update` throws

  /** A reminder whose item completes without an exception. */
  function Succeeds(fault: Reminder -> Fault): Reminder -> bool {
    r => fault(r) == NoFault
  }

  /** A reminder whose due event reaches the event bus. */
  function Notifies(fault: Reminder -> Fault): Reminder -> bool {
    r => fault(r) != DispatchThrows
  }

  /** The stored state of a reminder after its item: transitioned when the
      item succeeded, untouched when either call threw. */
  function ItemResult(r: Reminder, now: Time, cal: Calendar, fault: Reminder -> Fault): (c: Reminder)
    ensures fault(r) != NoFault ==> c == r
    ensures fault(r) == NoFault && Repeats(r) ==> c == RescheduleNext(r, cal) && c.status == ReminderStatus.Pending
    ensures fault(r) == NoFault && !Repeats(r) ==> c == Complete(r, now) && c.status == ReminderStatus.Completed
  {
    if fault(r) == NoFault then Advance(r, now, cal) else r
  }
}

=== FILE: hub_manager.dfy ===
/** The manager service: thread creation and membership, reactions, message
    posting with mentions, reminder creation and the unguarded due-reminder
    pass. Every table is an in-memory sequence of rows; the values the
    database or the framework would supply (new ids, random refids, the
    current time, configuration) are parameters. */
module HubManager {
  import opened Common
  import opened ThreadRole
  import opened Members
  import opened Messages
  import opened Threads
  import opened Reminders
  import opened DuePass
  import ReminderStatus
  import RepeatInterval

  // ---------------------------------------------------------------------------
  // Membership

  /** The row `addMember` inserts: the given role, no read marker, joined now.
      `notify` is the configured `default_notifications_enabled`. */
  function NewMember(threadId: nat, userId: int, role: Role, notify: bool, now: Time): ThreadMember {
    ThreadMember(threadId, userId, Some(role), None, notify, Some(now))
  }

  /** `addMember`: a user who already has a row gets that row back and nothing
      is written; otherwise a new row with the requested role is appended. */
  function AddMember(ms: seq<ThreadMember>, threadId: nat, userId: int, role: Role, notify: bool, now: Time)
    : (res: (seq<ThreadMember>, ThreadMember))
    ensures IsRowOf(res.1, threadId, userId) && res.1 in res.0
    ensures GetMember(ms, threadId, userId).Some? ==> res == (ms, GetMember(ms, threadId, userId).value)
    ensures GetMember(ms, threadId, userId).None? ==>
      res.1 == NewMember(threadId, userId, role, notify, now) && res.0 == ms + [res.1]
    ensures MembersUnique(ms) ==> MembersUnique(res.0)
    ensures forall t, u :: HasMember(res.0, t, u) <==> HasMember(ms, t, u) || (t == threadId && u == userId)
  {
    match GetMember(ms, threadId, userId)
    case Some(existing) => (ms, existing)
    case None =>
      var row := NewMember(threadId, userId, role, notify, now);
      var r := ms + [row];
      assert r[|ms|] == row;
      assert forall t, u :: HasMember(r, t, u) <==> HasMember(ms, t, u) || (t == threadId && u == userId) by {
        forall t, u ensures HasMember(r, t, u) <==> HasMember(ms, t, u) || (t == threadId && u == userId) {
          if HasMember(r, t, u) {
            var i :| 0 <= i < |r| && r[i].threadId == t && r[i].userId == u;
            if i < |ms| { assert ms[i] == r[i]; }
          }
          if HasMember(ms, t, u) {
            var i :| 0 <= i < |ms| && ms[i].threadId == t && ms[i].userId == u;
            assert r[i] == ms[i];
          }
        }
      }
      (r, row)
  }

  /** Adding a member twice is adding it once, whatever role, flag or time the
      second call asks for. */
  lemma AddMemberIdempotent(ms: seq<ThreadMember>, threadId: nat, userId: int,
                            role: Role, notify: bool, now: Time,
                            role2: Role, notify2: bool, now2: Time)
    ensures var first := AddMember(ms, threadId, userId, role, notify, now);
            AddMember(first.0, threadId, userId, role2, notify2, now2) == first
  {
    var first := AddMember(ms, threadId, userId, role, notify, now);
    if GetMember(ms, threadId, userId).None? {
      var g := GetMember(first.0, threadId, userId);
      assert g.Some?;
      assert forall j :: 0 <= j < |ms| ==> first.0[j] == ms[j];
    }
  }

  /** Removing a member that was just added with a role other than owner
      gives back the original table; an owner added this way stays. */
  lemma RemoveUndoesAdd(ms: seq<ThreadMember>, threadId: nat, userId: int, role: Role, notify: bool, now: Time)
    requires !HasMember(ms, threadId, userId)
    ensures role != Owner ==> RemoveMember(AddMember(ms, threadId, userId, role, notify, now).0, threadId, userId) == ms
    ensures role == Owner ==> HasMember(RemoveMember(AddMember(ms, threadId, userId, role, notify, now).0, threadId, userId), threadId, userId)
  {
    var added := AddMember(ms, threadId, userId, role, notify, now).0;
    assert added == ms + [NewMember(threadId, userId, role, notify, now)];
    assert MemberIndex(added, threadId, userId) == Some(|ms|);
    if role != Owner {
      var r := RemoveAt(added, |ms|);
      assert forall i :: 0 <= i < |r| ==> r[i] == ms[i];
    }
  }

  // ---------------------------------------------------------------------------
  // Thread creation

  /** The keys `createThread` reads from its data array; a missing or null
      key is `None`, a missing `members` list is empty. */
  datatype ThreadInput = ThreadInput(
    threadableType: Option<string>,
    threadableId: Option<int>,
    title: Option<string>,
    isPinned: Option<bool>,
    metadata: Option<Metadata>,
    createdBy: Option<int>,
    members: seq<int>)

  datatype CreatedThread = CreatedThread(thread: Thread, members: seq<ThreadMember>)

  /** No member row refers to thread `threadId` yet, as for a freshly
      inserted thread id. */
  predicate NoRowsFor(ms: seq<ThreadMember>, threadId: nat) {
    forall i :: 0 <= i < |ms| ==> ms[i].threadId != threadId
  }

  /** `addMember` for each user in turn, all with the same role. */
  function AddAll(ms: seq<ThreadMember>, threadId: nat, users: seq<int>, role: Role, notify: bool, now: Time)
    : (r: seq<ThreadMember>)
    ensures |ms| <= |r| && r[..|ms|] == ms
    ensures forall k :: |ms| <= k < |r| ==>
      r[k].userId in users && r[k] == NewMember(threadId, r[k].userId, role, notify, now)
    ensures MembersUnique(ms) ==> MembersUnique(r)
    ensures forall t, u :: HasMember(r, t, u) <==> HasMember(ms, t, u) || (t == threadId && u in users)
    decreases |users|
  {
    if |users| == 0 then ms
    else
      var next := AddMember(ms, threadId, users[0], role, notify, now).0;
      var r := AddAll(next, threadId, users[1..], role, notify, now);
      assert r[..|ms|] == next[..|ms|] by {
        assert |ms| <= |next|;
        assert r[..|next|][..|ms|] == r[..|ms|];
      }
      assert forall u :: u in users <==> u == users[0] || u in users[1..] by {
        assert users == [users[0]] + users[1..];
      }
      forall k | |ms| <= k < |r|
        ensures r[k].userId in users && r[k] == NewMember(threadId, r[k].userId, role, notify, now)
      {
        if k < |next| {
          assert r[k] == r[..|next|][k];
        }
      }
      r
  }

  /** `createThread`: the thread row takes the given fields with their
      defaults; the creator, when given, joins as owner; every other listed
      user joins as a plain member. `id` and `refid` are what the database and
      the random generator supply. */
  function CreateThread(ms: seq<ThreadMember>, id: nat, refid: string, input: ThreadInput, notify: bool, now: Time)
    : (c: CreatedThread)
    ensures c.thread.id == id && c.thread.refid == refid && c.thread.createdBy == input.createdBy
    ensures c.thread.isPinned == input.isPinned.OrElse(false) && c.thread.metadata == input.metadata.OrElse(map[])
    ensures c.thread.threadableType == input.threadableType && c.thread.threadableId == input.threadableId
    ensures c.thread.title == input.title
    ensures |ms| <= |c.members| && c.members[..|ms|] == ms
    ensures MembersUnique(ms) ==> MembersUnique(c.members)
    ensures forall t, u :: t != id ==> (HasMember(c.members, t, u) <==> HasMember(ms, t, u))
    ensures forall u :: HasMember(c.members, id, u) <==>
      HasMember(ms, id, u) || Some(u) == input.createdBy || u in input.members
    ensures NoRowsFor(ms, id) ==> forall x :: x in c.members && x.threadId == id ==>
      || (Some(x.userId) == input.createdBy && x.role == Some(Owner))
      || (x.userId in input.members && Some(x.userId) != input.createdBy && x.role == Some(Member))
  {
    var t := Thread(id, refid, input.threadableType, input.threadableId, input.title,
                    input.isPinned.OrElse(false), input.metadata.OrElse(map[]), input.createdBy);
    var withOwner := WithCreator(ms, id, input.createdBy, notify, now);
    var all := AddAll(withOwner, id, NonCreators(input), Member, notify, now);
    CreatedRowRoles(ms, withOwner, all, id, input, notify, now);
    CreatedThread(t, all)
  }

  /** The creator, when there is one, added as owner. */
  function WithCreator(ms: seq<ThreadMember>, id: nat, createdBy: Option<int>, notify: bool, now: Time)
    : (r: seq<ThreadMember>)
    ensures |ms| <= |r| <= |ms| + 1 && r[..|ms|] == ms
    ensures |r| == |ms| + 1 ==> createdBy.Some? && r[|ms|] == NewMember(id, createdBy.value, Owner, notify, now)
    ensures MembersUnique(ms) ==> MembersUnique(r)
    ensures forall t, u :: HasMember(r, t, u) <==> HasMember(ms, t, u) || (t == id && Some(u) == createdBy)
  {
    match createdBy
    case Some(creator) => AddMember(ms, id, creator, Owner, notify, now).0
    case None => ms
  }

  /** The listed users `createThread` adds as plain members: all but the creator. */
  function NonCreators(input: ThreadInput): (r: seq<int>)
    ensures forall u :: u in r <==> u in input.members && Some(u) != input.createdBy
  {
    var keep := (u: int) => Some(u) != input.createdBy;
    FilterContents(input.members, keep);
    Filter(input.members, keep)
  }

  /** In a fresh thread, the only rows are the creator's owner row and plain
      member rows of the other listed users. */
  lemma CreatedRowRoles(ms: seq<ThreadMember>, withOwner: seq<ThreadMember>, all: seq<ThreadMember>,
                        id: nat, input: ThreadInput, notify: bool, now: Time)
    requires withOwner == WithCreator(ms, id, input.createdBy, notify, now)
    requires all == AddAll(withOwner, id, NonCreators(input), Member, notify, now)
    ensures NoRowsFor(ms, id) ==> forall x :: x in all && x.threadId == id ==>
      || (Some(x.userId) == input.createdBy && x.role == Some(Owner))
      || (x.userId in input.members && Some(x.userId) != input.createdBy && x.role == Some(Member))
  {
    assert forall j :: 0 <= j < |ms| ==> withOwner[j] == ms[j];
    assert forall j :: 0 <= j < |withOwner| ==> all[j] == withOwner[j];
    forall x | NoRowsFor(ms, id) && x in all && x.threadId == id
      ensures || (Some(x.userId) == input.createdBy && x.role == Some(Owner))
              || (x.userId in input.members && Some(x.userId) != input.createdBy && x.role == Some(Member))
    {
      var k :| 0 <= k < |all| && all[k] == x;
      assert k >= |ms|;
    }
  }

  /** A new thread's creator is its owner. */
  lemma CreatorIsOwner(ms: seq<ThreadMember>, id: nat, refid: string, input: ThreadInput, notify: bool, now: Time)
    requires NoRowsFor(ms, id) && input.createdBy.Some?
    ensures var m := GetMember(CreateThread(ms, id, refid, input, notify, now).members, id, input.createdBy.value);
            m.Some? && IsOwner(m.value)
  {
    var c := CreateThread(ms, id, refid, input, notify, now);
    assert HasMember(c.members, id, input.createdBy.value);
  }

  /** A listed user other than the creator joins a new thread as a plain member. */
  lemma ListedUserIsMember(ms: seq<ThreadMember>, id: nat, refid: string, input: ThreadInput, notify: bool, now: Time, u: int)
    requires NoRowsFor(ms, id) && u in input.members && Some(u) != input.createdBy
    ensures var m := GetMember(CreateThread(ms, id, refid, input, notify, now).members, id, u);
            m.Some? && m.value.role == Some(Member) && !CanManage(m.value)
  {
    var c := CreateThread(ms, id, refid, input, notify, now);
    assert HasMember(c.members, id, u);
  }

  // ---------------------------------------------------------------------------
  // Reading

  /** `markAsRead` through the manager: the user's row, if any, gets its read
      marker set to `now`; every other row is untouched. */
  function MarkAsRead(ms: seq<ThreadMember>, threadId: nat, userId: int, now: Time): (r: seq<ThreadMember>)
    ensures |r| == |ms|
    ensures GetMember(ms, threadId, userId).None? ==> r == ms
    ensures forall i :: 0 <= i < |ms| && !IsRowOf(ms[i], threadId, userId) ==> r[i] == ms[i]
    ensures forall i :: 0 <= i < |ms| ==> r[i].(lastReadAt := ms[i].lastReadAt) == ms[i]
    ensures GetMember(ms, threadId, userId).Some? ==>
      GetMember(r, threadId, userId) == Some(Members.MarkAsRead(GetMember(ms, threadId, userId).value, now))
  {
    match MemberIndex(ms, threadId, userId)
    case None => ms
    case Some(k) =>
      var r := ms[k := Members.MarkAsRead(ms[k], now)];
      SameKeysSameIndex(ms, r, threadId, userId, 0);
      r
  }

  /** Tables whose rows have the same keys position by position find the
      same first row for every user. */
  lemma {:induction false} SameKeysSameIndex(a: seq<ThreadMember>, b: seq<ThreadMember>, threadId: nat, userId: int, from: nat)
    requires |a| == |b| && from <= |a|
    requires forall i :: 0 <= i < |a| ==> a[i].threadId == b[i].threadId && a[i].userId == b[i].userId
    ensures MemberIndexFrom(a, threadId, userId, from) == MemberIndexFrom(b, threadId, userId, from)
    decreases |a| - from
  {
    if from < |a| {
      SameKeysSameIndex(a, b, threadId, userId, from + 1);
    }
  }

  /** A member who marks the thread read once every message exists has
      nothing unread. */
  lemma NothingUnreadAfterMarking(ms: seq<ThreadMember>, msgs: seq<Message>, threadId: nat, userId: int, now: Time)
    requires HasMember(ms, threadId, userId)
    requires forall i :: 0 <= i < |msgs| && msgs[i].createdAt.Some? ==> msgs[i].createdAt.value <= now
    ensures UnreadCount(MarkAsRead(ms, threadId, userId, now), msgs, threadId, userId) == 0
  {
    NothingUnreadAfterLatest(msgs, threadId, now);
  }

  // ---------------------------------------------------------------------------
  // Reactions

  /** The rows `removeReaction` keeps: all but those of the user's emoji on the message. */
  function KeepsReaction(messageId: nat, userId: int, emoji: string): Reaction -> bool {
    (x: Reaction) => !(x.messageId == messageId && x.userId == userId && x.emoji == emoji)
  }

  /** `addReaction`: nothing is written and nothing returned when the user
      already reacted with that emoji; otherwise the new row is appended. */
  function AddReaction(rs: seq<Reaction>, messageId: nat, emoji: string, userId: int, now: Time)
    : (res: (seq<Reaction>, Option<Reaction>))
    ensures HasReaction(rs, messageId, userId, emoji) ==> res == (rs, None)
    ensures !HasReaction(rs, messageId, userId, emoji) ==>
      res.1 == Some(Reaction(messageId, userId, emoji, Some(now))) && res.0 == rs + [res.1.value]
    ensures HasReaction(res.0, messageId, userId, emoji)
    ensures forall m, u, e :: !(m == messageId && u == userId && e == emoji) ==>
      (HasReaction(res.0, m, u, e) <==> HasReaction(rs, m, u, e))
    ensures ReactionsUnique(rs) ==> ReactionsUnique(res.0)
  {
    if HasReaction(rs, messageId, userId, emoji) then (rs, None)
    else
      var row := Reaction(messageId, userId, emoji, Some(now));
      var r := rs + [row];
      assert r[|rs|] == row;
      assert forall x :: x in r <==> x in rs || x == row;
      (r, Some(row))
  }

  /** `removeReaction`: every row of the user's emoji on the message goes,
      every other row stays, in order. This reads the three reaction scopes
      as the filters their names describe; a scope call that throws instead
      is not modelled. */
  function RemoveReaction(rs: seq<Reaction>, messageId: nat, emoji: string, userId: int): (r: seq<Reaction>)
    ensures !HasReaction(r, messageId, userId, emoji)
    ensures forall x :: x in r <==> x in rs && !(x.messageId == messageId && x.userId == userId && x.emoji == emoji)
    ensures forall m, u, e :: !(m == messageId && u == userId && e == emoji) ==>
      (HasReaction(r, m, u, e) <==> HasReaction(rs, m, u, e))
    ensures ReactionsUnique(rs) ==> ReactionsUnique(r)
  {
    var keep := KeepsReaction(messageId, userId, emoji);
    FilterContents(rs, keep);
    FilterKeepsReactionsUnique(rs, keep);
    Filter(rs, keep)
  }

  /** Filtering never puts two rows with one key next to each other. */
  lemma {:induction false} FilterKeepsReactionsUnique(rs: seq<Reaction>, p: Reaction -> bool)
    ensures ReactionsUnique(rs) ==> ReactionsUnique(Filter(rs, p))
  {
    if |rs| > 0 && ReactionsUnique(rs) {
      var tail := rs[1..];
      FilterKeepsReactionsUnique(tail, p);
      FilterContents(tail, p);
      var f := Filter(tail, p);
      if p(rs[0]) {
        forall j | 0 <= j < |f| ensures !SameKey(rs[0], f[j]) {
          assert f[j] in tail;
          var k :| 0 <= k < |tail| && tail[k] == f[j];
          assert rs[k + 1] == f[j];
        }
        var g := [rs[0]] + f;
        assert Filter(rs, p) == g;
        forall i, j | 0 <= i < j < |g| ensures !SameKey(g[i], g[j]) {
          if i == 0 {
            assert g[j] == f[j - 1];
          } else {
            assert g[i] == f[i - 1] && g[j] == f[j - 1];
          }
        }
      }
    }
  }

  /** `toggleReaction`: the answer is whether the reaction was absent, and
      its presence flips; no other reaction changes. */
  function ToggleReaction(rs: seq<Reaction>, messageId: nat, emoji: string, userId: int, now: Time)
    : (res: (seq<Reaction>, bool))
    ensures res.1 <==> !HasReaction(rs, messageId, userId, emoji)
    ensures HasReaction(res.0, messageId, userId, emoji) <==> res.1
    ensures forall m, u, e :: !(m == messageId && u == userId && e == emoji) ==>
      (HasReaction(res.0, m, u, e) <==> HasReaction(rs, m, u, e))
    ensures ReactionsUnique(rs) ==> ReactionsUnique(res.0)
  {
    if HasReaction(rs, messageId, userId, emoji) then (RemoveReaction(rs, messageId, emoji, userId), false)
    else (AddReaction(rs, messageId, emoji, userId, now).0, true)
  }

  /** Toggling twice restores which reactions exist; when the reaction was
      absent at first, it restores the table itself. */
  lemma ToggleTwiceRestores(rs: seq<Reaction>, messageId: nat, emoji: string, userId: int, now1: Time, now2: Time)
    ensures var twice := ToggleReaction(ToggleReaction(rs, messageId, emoji, userId, now1).0, messageId, emoji, userId, now2).0;
            forall m, u, e :: HasReaction(twice, m, u, e) <==> HasReaction(rs, m, u, e)
    ensures !HasReaction(rs, messageId, userId, emoji) ==>
      ToggleReaction(ToggleReaction(rs, messageId, emoji, userId, now1).0, messageId, emoji, userId, now2).0 == rs
  {
    if !HasReaction(rs, messageId, userId, emoji) {
      var row := Reaction(messageId, userId, emoji, Some(now1));
      var keep := KeepsReaction(messageId, userId, emoji);
      FilterAppend(rs, row, keep);
      FilterAll(rs, keep);
    }
  }

  // ---------------------------------------------------------------------------
  // Posting messages

  /** The keys `postMessage` reads from its data array. `threadId` and
      `userId` are `None` when the caller passes null. */
  datatype MessageInput = MessageInput(
    threadId: Option<nat>,
    parentId: Option<nat>,
    userId: Option<int>,
    body: string,
    isPinned: Option<bool>,
    mentions: Option<seq<int>>,
    metadata: Option<Metadata>)

  /** What `postMessage` leaves behind. A null thread or sender fails the
      insert and writes nothing. A mention that repeats an existing
      `(message_id, user_id)` pair violates the unique index: the message
      and the earlier mentions stay written, and the call throws. */
  datatype PostOutcome =
    | Rejected
    | Posted(message: Message, messages: seq<Message>, mentions: seq<Mention>)
    | MentionClash(message: Message, messages: seq<Message>, mentions: seq<Mention>, userId: int)

  /** `$data['mentions'] ?? $this->parseMentions($data['body'])`; the parser
      is a parameter. */
  function MentionIds(input: MessageInput, parse: string -> seq<int>): seq<int> {
    input.mentions.OrElse(parse(input.body))
  }

  /** The mention loop: one row per id, in order, stopping at the first id
      whose row already exists. The earlier rows stay written. */
  function InsertMentions(ms: seq<Mention>, messageId: nat, ids: seq<int>): (res: (seq<Mention>, Option<int>))
    ensures |ms| <= |res.0| <= |ms| + |ids| && res.0[..|ms|] == ms
    ensures res.1.None? ==> |res.0| == |ms| + |ids|
    decreases |ids|
  {
    if |ids| == 0 then (ms, None)
    else
      var row := Mention(messageId, ids[0]);
      if row in ms then (ms, Some(ids[0]))
      else
        var res := InsertMentions(ms + [row], messageId, ids[1..]);
        assert res.0[..|ms|] == res.0[..|ms| + 1][..|ms|];
        res
  }

  /** Every row the loop writes belongs to the message and to a listed id;
      a run to the end writes exactly one row per id, in order. */
  lemma {:induction false} InsertMentionsRows(ms: seq<Mention>, messageId: nat, ids: seq<int>)
    ensures var res := InsertMentions(ms, messageId, ids);
            forall k :: |ms| <= k < |res.0| ==> res.0[k].messageId == messageId && res.0[k].userId in ids
    ensures var res := InsertMentions(ms, messageId, ids);
            res.1.None? ==> forall k :: 0 <= k < |ids| ==> res.0[|ms| + k] == Mention(messageId, ids[k])
    decreases |ids|
  {
    if |ids| > 0 && Mention(messageId, ids[0]) !in ms {
      var next := ms + [Mention(messageId, ids[0])];
      InsertMentionsRows(next, messageId, ids[1..]);
      var res := InsertMentions(next, messageId, ids[1..]);
      InsertedAfterHead(ms, next, messageId, ids, res.0, res.1.None?);
    }
  }

  /** The loop never writes a mention row twice: the unique index of
      `hub_mention` is preserved. */
  lemma {:induction false} InsertMentionsUnique(ms: seq<Mention>, messageId: nat, ids: seq<int>)
    ensures MentionsUnique(ms) ==> MentionsUnique(InsertMentions(ms, messageId, ids).0)
    decreases |ids|
  {
    if |ids| > 0 && Mention(messageId, ids[0]) !in ms {
      AppendFreshMention(ms, Mention(messageId, ids[0]));
      InsertMentionsUnique(ms + [Mention(messageId, ids[0])], messageId, ids[1..]);
    }
  }

  /** Appending a row that is not in the table keeps the mention key unique. */
  lemma AppendFreshMention(ms: seq<Mention>, row: Mention)
    requires row !in ms
    ensures MentionsUnique(ms) ==> MentionsUnique(ms + [row])
  {
    var next := ms + [row];
    if MentionsUnique(ms) {
      forall i, j | 0 <= i < j < |next| ensures next[i] != next[j] {
        assert next[i] == ms[i];
      }
    }
  }

  /** The rows written for the tail of `ids`, after the head's row, are the
      rows written for all of `ids`. */
  lemma InsertedAfterHead(ms: seq<Mention>, next: seq<Mention>, messageId: nat, ids: seq<int>,
                          out: seq<Mention>, complete: bool)
    requires |ids| > 0 && next == ms + [Mention(messageId, ids[0])]
    requires |next| <= |out| && out[..|next|] == next
    requires forall k :: |next| <= k < |out| ==> out[k].messageId == messageId && out[k].userId in ids[1..]
    requires complete ==> |out| == |next| + |ids[1..]|
    requires complete ==> forall k :: 0 <= k < |ids[1..]| ==> out[|next| + k] == Mention(messageId, ids[1..][k])
    ensures out[..|ms|] == ms
    ensures forall k :: |ms| <= k < |out| ==> out[k].messageId == messageId && out[k].userId in ids
    ensures complete ==> forall k :: 0 <= k < |ids| ==> out[|ms| + k] == Mention(messageId, ids[k])
  {
    assert out[..|ms|] == out[..|next|][..|ms|];
    assert out[|ms|] == out[..|next|][|ms|];
    assert forall u :: u in ids[1..] ==> u in ids;
    if complete {
      forall k | 0 <= k < |ids| ensures out[|ms| + k] == Mention(messageId, ids[k]) {
        if k > 0 {
          assert out[|next| + (k - 1)] == Mention(messageId, ids[1..][k - 1]);
        }
      }
    }
  }

  /** The mention loop runs to the end exactly when the ids are distinct and
      none of their rows exists yet; otherwise it stops at an id whose row
      exists. */
  lemma {:induction false} InsertMentionsOutcome(ms: seq<Mention>, messageId: nat, ids: seq<int>)
    ensures var res := InsertMentions(ms, messageId, ids);
            res.1.None? <==> Distinct(ids) && forall u :: u in ids ==> Mention(messageId, u) !in ms
    ensures var res := InsertMentions(ms, messageId, ids);
            res.1.Some? ==> res.1.value in ids && Mention(messageId, res.1.value) in res.0
    decreases |ids|
  {
    if |ids| > 0 {
      var row := Mention(messageId, ids[0]);
      assert forall u :: u in ids <==> u == ids[0] || u in ids[1..] by {
        assert ids == [ids[0]] + ids[1..];
      }
      DistinctCons(ids);
      if row !in ms {
        InsertMentionsOutcome(ms + [row], messageId, ids[1..]);
      }
    }
  }

  /** `postMessage`: the message row is appended, then one mention row per
      mentioned id. `id` and `refid` are what the database and the random
      generator supply. */
  function PostMessage(msgs: seq<Message>, mentions: seq<Mention>, id: nat, refid: string,
                       input: MessageInput, now: Time, parse: string -> seq<int>): (o: PostOutcome)
    ensures o.Rejected? <==> input.threadId.None? || input.userId.None?
    ensures !o.Rejected? ==> o.messages == msgs + [o.message]
    ensures !o.Rejected? ==>
      && o.message.id == id && o.message.refid == refid
      && o.message.threadId == input.threadId.value && o.message.userId == input.userId.value
      && o.message.parentId == input.parentId && o.message.body == input.body
      && o.message.isPinned == input.isPinned.OrElse(false)
      && o.message.metadata == input.metadata.OrElse(map[])
      && o.message.createdAt == Some(now)
    ensures o.Posted? <==> (!o.Rejected? &&
      Distinct(MentionIds(input, parse)) && forall u :: u in MentionIds(input, parse) ==> Mention(id, u) !in mentions)
    ensures o.Posted? ==> forall u :: u in MentionIds(input, parse) ==> Mention(id, u) in o.mentions
    ensures o.Posted? ==> |o.mentions| == |mentions| + |MentionIds(input, parse)| && o.mentions[..|mentions|] == mentions
    ensures o.MentionClash? ==> o.userId in MentionIds(input, parse)
    ensures o.Posted? || o.MentionClash? ==> (MentionsUnique(mentions) ==> MentionsUnique(o.mentions))
  {
    if input.threadId.None? || input.userId.None? then Rejected
    else
      var m := Message(id, refid, input.threadId.value, input.parentId, input.userId.value, input.body,
                       input.isPinned.OrElse(false), input.metadata.OrElse(map[]), Some(now));
      var ids := MentionIds(input, parse);
      var res := InsertMentions(mentions, id, ids);
      InsertMentionsOutcome(mentions, id, ids);
      InsertMentionsRows(mentions, id, ids);
      InsertMentionsUnique(mentions, id, ids);
      if res.1.None? then
        forall u | u in ids ensures Mention(id, u) in res.0 {
          var k :| 0 <= k < |ids| && ids[k] == u;
          assert res.0[|mentions| + k] == Mention(id, u);
        }
        Posted(m, msgs + [m], res.0)
      else MentionClash(m, msgs + [m], res.0, res.1.value)
  }

  /** With an explicit mention list the body parser plays no part. */
  lemma ExplicitMentionsIgnoreParser(msgs: seq<Message>, mentions: seq<Mention>, id: nat, refid: string,
                                     input: MessageInput, now: Time, parse1: string -> seq<int>, parse2: string -> seq<int>)
    requires input.mentions.Some?
    ensures PostMessage(msgs, mentions, id, refid, input, now, parse1)
         == PostMessage(msgs, mentions, id, refid, input, now, parse2)
  {
  }

  // ---------------------------------------------------------------------------
  // Reminders

  /** The keys `createReminder` reads from its data array. `remindAt` is
      `None` when the caller passes null. */
  datatype ReminderInput = ReminderInput(
    userId: int,
    remindableType: Option<string>,
    remindableId: Option<int>,
    message: string,
    remindAt: Option<Time>,
    repeatInterval: Option<RepeatInterval.Interval>,
    metadata: Option<Metadata>)

  /** Why the insert of a reminder fails: `remind_at` is NOT NULL and `refid`
      is unique in `hub_reminder`. */
  datatype InsertError = NullRemindAt | DuplicateRefid

  /** `createReminder`: a pending reminder with the given payload, repeating
      `none` unless told otherwise, appended to the table. `refid` is what the
      random generator supplies. */
  function CreateReminder(table: seq<Reminder>, refid: string, input: ReminderInput)
    : (res: Result<(seq<Reminder>, Reminder), InsertError>)
    ensures input.remindAt.None? ==> res == Err(NullRemindAt)
    ensures input.remindAt.Some? && (exists i :: 0 <= i < |table| && table[i].refid == refid) ==> res == Err(DuplicateRefid)
    ensures res.Ok? ==> res.value.0 == table + [res.value.1]
    ensures res.Ok? ==>
      var r := res.value.1;
      && r.refid == refid && r.userId == input.userId
      && r.remindableType == input.remindableType && r.remindableId == input.remindableId
      && r.message == input.message && r.remindAt == input.remindAt.value
      && r.repeatInterval == Some(input.repeatInterval.OrElse(RepeatInterval.NoRepeat))
      && r.metadata == input.metadata.OrElse(map[])
    ensures res.Ok? ==>
      var r := res.value.1;
      r.status == ReminderStatus.Pending && r.completedAt.None? && r.snoozedUntil.None? && SnoozeCount(r) == 0
    ensures res.Ok? ==> (RefidsUnique(table) ==> RefidsUnique(res.value.0))
  {
    if input.remindAt.None? then Err(NullRemindAt)
    else if exists i :: 0 <= i < |table| && table[i].refid == refid then Err(DuplicateRefid)
    else
      var r := Reminder(refid, input.userId, input.remindableType, input.remindableId, input.message,
                        input.remindAt.value, Some(input.repeatInterval.OrElse(RepeatInterval.NoRepeat)),
                        ReminderStatus.Pending, None, None, None, input.metadata.OrElse(map[]));
      Ok((table + [r], r))
  }

  /** A freshly created reminder fires at its scheduled time: the due scope
      selects it from that instant on, `isDue` one second later; it repeats
      exactly when a repeating interval was asked for. */
  lemma CreatedReminderSchedule(table: seq<Reminder>, refid: string, input: ReminderInput, t: Time)
    requires CreateReminder(table, refid, input).Ok?
    ensures var r := CreateReminder(table, refid, input).value.1;
            && (InDueScope(r, t) <==> input.remindAt.value <= t)
            && (IsDue(r, t) <==> input.remindAt.value < t)
            && (Repeats(r) <==> input.repeatInterval.Some? && RepeatInterval.Repeats(input.repeatInterval.value))
  {
  }

  /** How `processDueReminders` ends: it returns the count after handling every
      due reminder, or the exception of the item at position `at` escapes. */
  datatype RunOutcome = Finished(count: nat) | Aborted(at: nat)

  /** `processDueReminders`: every due reminder, with no limit, is dispatched
      and then rescheduled or completed. There is no `try`: the first
      dispatch or save that throws ends the pass, leaving the later reminders
      untouched. `after[i]` is the stored state of the i-th due reminder
      afterwards and `notified` the reminders whose event went out. */
  method ProcessDueReminders(table: seq<Reminder>, now: Time, cal: Calendar, fault: Reminder -> Fault)
    returns (outcome: RunOutcome, after: seq<Reminder>, notified: seq<Reminder>)
    ensures outcome.Finished? <==> forall i :: 0 <= i < |Due(table, now)| ==> fault(Due(table, now)[i]) == NoFault
    ensures outcome.Finished? ==> outcome.count == |Due(table, now)| && notified == Due(table, now)
    ensures |after| == |Due(table, now)|
    ensures outcome.Finished? ==> forall i :: 0 <= i < |after| ==> after[i] == Advance(Due(table, now)[i], now, cal)
    ensures outcome.Aborted? ==> outcome.at < |Due(table, now)| && fault(Due(table, now)[outcome.at]) != NoFault
    ensures outcome.Aborted? ==> forall i :: 0 <= i < |after| ==>
      after[i] == if i < outcome.at then Advance(Due(table, now)[i], now, cal) else Due(table, now)[i]
    ensures outcome.Aborted? ==>
      notified == Due(table, now)[..outcome.at] +
                  (if fault(Due(table, now)[outcome.at]) == SaveThrows then [Due(table, now)[outcome.at]] else [])
  {
    var due := Due(table, now);
    after, notified := due, [];
    var i := 0;
    while i < |due|
      invariant 0 <= i <= |due|
      invariant |after| == |due|
      invariant forall k :: 0 <= k < |due| ==> after[k] == if k < i then Advance(due[k], now, cal) else due[k]
      invariant forall k :: 0 <= k < i ==> fault(due[k]) == NoFault
      invariant notified == due[..i]
    {
      var r := due[i];
      if fault(r) == DispatchThrows {
        outcome := Aborted(i);
        return;
      }
      notified := notified + [r];
      assert notified == due[..i + 1];
      if fault(r) == SaveThrows {
        outcome := Aborted(i);
        return;
      }
      after := after[i := Advance(r, now, cal)];
      i := i + 1;
    }
    assert notified == due;
    outcome := Finished(i);
  }

  // ---------------------------------------------------------------------------
  // Listing

  /** The rows `getUpcomingReminders` selects: the user's upcoming rows. */
  function UserUpcomingRow(userId: int, future: Time): Reminder -> bool {
    (r: Reminder) => r.userId == userId && r.status == ReminderStatus.Pending && r.remindAt <= future
  }

  /** `getUpcomingReminders`: the user's pending reminders scheduled within
      `days` days from now, earliest first, each exactly once. */
  function UpcomingForUser(table: seq<Reminder>, userId: int, now: Time, days: int): (u: seq<Reminder>)
    ensures SortedByTime(u)
    ensures forall x :: x in u <==>
      x in table && x.userId == userId && x.status == ReminderStatus.Pending && x.remindAt <= Horizon(now, days)
    ensures multiset(u) == multiset(Filter(table, UserUpcomingRow(userId, Horizon(now, days))))
  {
    var mine := Reminders.ForUser(table, userId);
    var u := Upcoming(mine, now, days);
    FilterFilter(table, OfUser(userId), UpcomingRow(Horizon(now, days)), UserUpcomingRow(userId, Horizon(now, days)));
    u
  }
}

=== FILE: member_builder.dfy ===
/** The fluent member builder returned by a thread's `addMember`: a role and
    a notification flag, then `add`. */
module MemberBuilder {
  import opened Common
  import opened ThreadRole
  import opened Members
  import opened Threads
  import HubManager

  /** The builder's fields: the thread and user it was made for, the chosen
      role and whether notifications are on. */
  datatype Draft = Draft(threadId: nat, userId: int, role: Role, notify: bool)

  /** A builder as constructed: for the given thread and user, with a role
      that may neither manage members nor delete the thread, and with
      notifications on. */
  function New(threadId: nat, userId: int): (d: Draft)
    ensures d.threadId == threadId && d.userId == userId
    ensures !CanManageMembers(d.role) && !CanDeleteThread(d.role) && d.notify
  {
    Draft(threadId, userId, Member, true)
  }

  function AsOwner(d: Draft): (c: Draft)
    ensures c.role == Owner && c.(role := d.role) == d
  {
    d.(role := Owner)
  }

  function AsAdmin(d: Draft): (c: Draft)
    ensures c.role == Admin && c.(role := d.role) == d
  {
    d.(role := Admin)
  }

  function AsMember(d: Draft): (c: Draft)
    ensures c.role == Member && c.(role := d.role) == d
  {
    d.(role := Member)
  }

  function AsGuest(d: Draft): (c: Draft)
    ensures c.role == Guest && c.(role := d.role) == d
  {
    d.(role := Guest)
  }

  /** `silent`: notifications off. */
  function Silent(d: Draft): (c: Draft)
    ensures !c.notify && c.(notify := d.notify) == d
  {
    d.(notify := false)
  }

  /** `withNotifications`: notifications on. */
  function WithNotifications(d: Draft): (c: Draft)
    ensures c.notify && c.(notify := d.notify) == d
  {
    d.(notify := true)
  }

  /** Each setter overwrites its field, so the last role setter and the last
      notification setter win, and the two kinds do not interfere. */
  lemma LastSetterWins(d: Draft)
    ensures AsOwner(AsGuest(d)) == AsOwner(d) && AsGuest(AsOwner(d)) == AsGuest(d)
    ensures AsAdmin(AsMember(d)) == AsAdmin(d) && AsMember(AsAdmin(d)) == AsMember(d)
    ensures Silent(WithNotifications(d)) == Silent(d) && WithNotifications(Silent(d)) == WithNotifications(d)
    ensures Silent(AsAdmin(d)) == AsAdmin(Silent(d))
  {
  }

  /** `add`: an existing row of the user is returned as it is, whatever was
      chosen; otherwise a row with exactly the chosen role and flag is added. */
  function Add(ms: seq<ThreadMember>, d: Draft, now: Time): (res: (seq<ThreadMember>, ThreadMember))
    ensures GetMember(ms, d.threadId, d.userId).Some? ==> res == (ms, GetMember(ms, d.threadId, d.userId).value)
    ensures GetMember(ms, d.threadId, d.userId).None? ==>
      && res.1 == ThreadMember(d.threadId, d.userId, Some(d.role), None, d.notify, Some(now))
      && res.0 == ms + [res.1]
    ensures MembersUnique(ms) ==> MembersUnique(res.0)
    ensures GetMember(res.0, d.threadId, d.userId).Some?
  {
    HubManager.AddMember(ms, d.threadId, d.userId, d.role, d.notify, now)
  }

  /** For a user who is already a member, no choice made on the builder
      changes what `add` returns or writes. */
  lemma AddIgnoresChoicesForMembers(ms: seq<ThreadMember>, d1: Draft, d2: Draft, now1: Time, now2: Time)
    requires d1.threadId == d2.threadId && d1.userId == d2.userId
    requires HasMember(ms, d1.threadId, d1.userId)
    ensures Add(ms, d1, now1) == Add(ms, d2, now2)
  {
  }

  /** A fresh builder adds a newcomer as a plain member with notifications on,
      who may not manage the thread. */
  lemma NewDraftAddsPlainMember(ms: seq<ThreadMember>, threadId: nat, userId: int, now: Time)
    requires !HasMember(ms, threadId, userId)
    ensures var row := Add(ms, New(threadId, userId), now).1;
            row.role == Some(Member) && row.notificationsEnabled && !CanManage(row)
  {
  }
}

=== FILE: message.dfy ===
/** Messages (`hub_message`), their emoji reactions (`hub_reaction`) and
    mentions (`hub_mention`), with the per-message reaction queries. */
module Messages {
  import opened Common

  datatype Message = Message(
    id: nat,
    refid: string,
    threadId: nat,
    parentId: Option<nat>,
    userId: int,
    body: string,
    isPinned: bool,
    metadata: Metadata,
    createdAt: Option<Time>)

  datatype Reaction = Reaction(messageId: nat, userId: int, emoji: string, createdAt: Option<Time>)

  datatype Mention = Mention(messageId: nat, userId: int)

  /** The unique key of `hub_reaction`. */
  predicate SameKey(a: Reaction, b: Reaction) {
    a.messageId == b.messageId && a.userId == b.userId && a.emoji == b.emoji
  }

  /** `(message_id, user_id, emoji)` is unique in `hub_reaction`. */
  predicate ReactionsUnique(rs: seq<Reaction>) {
    forall i, j :: 0 <= i < j < |rs| ==> !SameKey(rs[i], rs[j])
  }

  /** `(message_id, user_id)` is unique in `hub_mention`. */
  predicate MentionsUnique(ms: seq<Mention>) {
    forall i, j :: 0 <= i < j < |ms| ==> ms[i] != ms[j]
  }

  /** `isReply`: the message answers another one. */
  function IsReply(m: Message): (b: bool)
    ensures b <==> m.parentId.Some?
  {
    m.parentId != None
  }

  /** `pin`: the message is pinned and nothing else changes; pinning twice is pinning once. */
  function Pin(m: Message): (c: Message)
    ensures c.isPinned
    ensures c.(isPinned := m.isPinned) == m
  {
    m.(isPinned := true)
  }

  /** `unpin`: the message is unpinned and nothing else changes. */
  function Unpin(m: Message): (c: Message)
    ensures !c.isPinned
    ensures c.(isPinned := m.isPinned) == m
  {
    m.(isPinned := false)
  }

  /** Pinning and unpinning are idempotent. */
  lemma PinIdempotent(m: Message)
    ensures Pin(Pin(m)) == Pin(m)
    ensures Unpin(Unpin(m)) == Unpin(m)
  {
  }

  /** The reaction rows of one message. */
  function ReactionsOf(rs: seq<Reaction>, messageId: nat): (r: seq<Reaction>)
    ensures forall i :: 0 <= i < |r| ==> r[i].messageId == messageId
    ensures forall x :: x in r <==> x in rs && x.messageId == messageId
  {
    var keep := (x: Reaction) => x.messageId == messageId;
    FilterContents(rs, keep);
    Filter(rs, keep)
  }

  /** `hasReaction(userId, emoji)` on message `messageId`. */
  function HasReaction(rs: seq<Reaction>, messageId: nat, userId: int, emoji: string): (b: bool)
    ensures b <==> exists x :: x in ReactionsOf(rs, messageId) && x.userId == userId && x.emoji == emoji
  {
    exists x :: x in rs && x.messageId == messageId && x.userId == userId && x.emoji == emoji
  }

  // ---------------------------------------------------------------------------
  // Reaction counts. PHP arrays keep insertion order, so the counts are an
  // ordered list of (emoji, count) pairs.

  type Counts = seq<(string, nat)>

  /** The emojis of the entries, in order. */
  function Keys(c: Counts): seq<string> {
    if |c| == 0 then [] else [c[0].0] + Keys(c[1..])
  }

  /** No emoji has two entries. */
  predicate DistinctKeys(c: Counts) {
    |c| == 0 || (c[0].0 !in Keys(c[1..]) && DistinctKeys(c[1..]))
  }

  /** Every entry counts at least one reaction. */
  predicate Positive(c: Counts) {
    forall i :: 0 <= i < |c| ==> c[i].1 >= 1
  }

  /** `$counts[$emoji] ?? 0`. */
  function Lookup(c: Counts, e: string): nat {
    if |c| == 0 then 0
    else if c[0].0 == e then c[0].1
    else Lookup(c[1..], e)
  }

  function Sum(c: Counts): nat {
    if |c| == 0 then 0 else c[0].1 + Sum(c[1..])
  }

  /** `$counts[$emoji] = ($counts[$emoji] ?? 0) + 1`: bump the entry in place,
      or append a new entry with count 1. */
  function Bump(c: Counts, e: string): (d: Counts)
    ensures Keys(d) == if e in Keys(c) then Keys(c) else Keys(c) + [e]
    ensures DistinctKeys(c) ==> DistinctKeys(d)
    ensures Lookup(d, e) == Lookup(c, e) + 1
    ensures forall k :: k != e ==> Lookup(d, k) == Lookup(c, k)
    ensures Sum(d) == Sum(c) + 1
    ensures Positive(c) ==> Positive(d)
  {
    if |c| == 0 then [(e, 1)]
    else if c[0].0 == e then
      var d := [(e, c[0].1 + 1)] + c[1..];
      assert d[1..] == c[1..];
      d
    else
      var d := [c[0]] + Bump(c[1..], e);
      assert d[1..] == Bump(c[1..], e);
      d
  }

  /** The emojis of the reactions in `rs`, in order. */
  function Emojis(rs: seq<Reaction>): seq<string> {
    if |rs| == 0 then [] else Emojis(rs[..|rs| - 1]) + [rs[|rs| - 1].emoji]
  }

  lemma {:induction false} EmojisContents(rs: seq<Reaction>, e: string)
    ensures e in Emojis(rs) <==> exists x :: x in rs && x.emoji == e
  {
    if |rs| > 0 {
      var init := rs[..|rs| - 1];
      EmojisContents(init, e);
      assert rs == init + [rs[|rs| - 1]];
      if exists x :: x in rs && x.emoji == e {
        var x :| x in rs && x.emoji == e;
        assert x in init || x == rs[|rs| - 1];
      }
    }
  }

  /** The number of reactions in `rs` with emoji `e`. */
  function CountEmoji(rs: seq<Reaction>, e: string): nat {
    if |rs| == 0 then 0
    else CountEmoji(rs[..|rs| - 1], e) + (if rs[|rs| - 1].emoji == e then 1 else 0)
  }

  /** The `foreach` of `getReactionCounts` over the reactions in `rs`, in order. */
  function Tally(rs: seq<Reaction>): (c: Counts)
    ensures DistinctKeys(c) && Positive(c)
    ensures forall e :: e in Keys(c) <==> e in Emojis(rs)
    ensures forall e :: Lookup(c, e) == CountEmoji(rs, e)
    ensures Sum(c) == |rs|
  {
    if |rs| == 0 then []
    else Bump(Tally(rs[..|rs| - 1]), rs[|rs| - 1].emoji)
  }

  /** `getReactionCounts` of message `messageId`: one entry per emoji used on
      it, each counting that emoji's reactions, adding up to the number of
      reactions on the message. */
  function ReactionCounts(rs: seq<Reaction>, messageId: nat): (c: Counts)
    ensures DistinctKeys(c) && Positive(c)
    ensures forall e :: e in Keys(c) <==> HasEmoji(rs, messageId, e)
    ensures forall e :: Lookup(c, e) == CountEmoji(ReactionsOf(rs, messageId), e)
    ensures Sum(c) == |ReactionsOf(rs, messageId)|
  {
    var mine := ReactionsOf(rs, messageId);
    forall e ensures e in Emojis(mine) <==> HasEmoji(rs, messageId, e) {
      EmojisContents(mine, e);
    }
    Tally(mine)
  }

  /** Some reaction on message `messageId` uses emoji `e`. */
  predicate HasEmoji(rs: seq<Reaction>, messageId: nat, e: string) {
    exists x :: x in rs && x.messageId == messageId && x.emoji == e
  }

  /** An emoji that has an entry in positive counts has a count of at least one. */
  lemma {:induction false} LookupOfKey(c: Counts, e: string)
    requires Positive(c) && e in Keys(c)
    ensures Lookup(c, e) >= 1
  {
    if c[0].0 != e {
      assert e in Keys(c[1..]);
      assert Positive(c[1..]) by {
        forall i | 0 <= i < |c[1..]| ensures c[1..][i].1 >= 1 {
          assert c[1..][i] == c[i + 1];
        }
      }
      LookupOfKey(c[1..], e);
    }
  }

  /** `hasReaction` asks the message's own reactions for the user and emoji,
      and a reaction it finds is counted by `getReactionCounts`. */
  lemma HasReactionCounted(rs: seq<Reaction>, messageId: nat, userId: int, emoji: string)
    ensures HasReaction(rs, messageId, userId, emoji)
        <==> exists x :: x in ReactionsOf(rs, messageId) && x.userId == userId && x.emoji == emoji
    ensures HasReaction(rs, messageId, userId, emoji) ==> Lookup(ReactionCounts(rs, messageId), emoji) >= 1
  {
    if HasReaction(rs, messageId, userId, emoji) {
      var c := ReactionCounts(rs, messageId);
      assert HasEmoji(rs, messageId, emoji);
      LookupOfKey(c, emoji);
    }
  }

  // ---------------------------------------------------------------------------
  // Query scopes

  /** The `root` scope: exactly the messages that are not replies. */
  function RootOnly(ms: seq<Message>): (r: seq<Message>)
    ensures forall x :: x in r <==> x in ms && !IsReply(x)
  {
    var keep := (x: Message) => x.parentId.None?;
    FilterContents(ms, keep);
    Filter(ms, keep)
  }

  /** The `inThread` scope. */
  function InThread(ms: seq<Message>, threadId: nat): (r: seq<Message>)
    ensures forall x :: x in r <==> x in ms && x.threadId == threadId
  {
    var keep := (x: Message) => x.threadId == threadId;
    FilterContents(ms, keep);
    Filter(ms, keep)
  }

  /** The `pinned` scope. */
  function PinnedOnly(ms: seq<Message>): (r: seq<Message>)
    ensures forall x :: x in r <==> x in ms && x.isPinned
  {
    var keep := (x: Message) => x.isPinned;
    FilterContents(ms, keep);
    Filter(ms, keep)
  }
}

=== FILE: message_builder.dfy ===
/** The fluent message builder: setters that accumulate a message and its
    explicit mention list, and `send`, which hands them to the manager service. */
module MessageBuilder {
  import opened Common
  import opened Messages
  import Threads
  import HubManager

  /** The builder's fields. Thread and sender stay `None` until set. */
  datatype Draft = Draft(
    threadId: Option<nat>,
    parentId: Option<nat>,
    userId: Option<int>,
    body: string,
    isPinned: bool,
    mentions: seq<int>,
    metadata: Metadata)

  /** A builder as constructed: `send` rejects it until a thread and an author
      are set, whatever the tables hold. */
  function New(): (d: Draft)
    ensures forall msgs, mentions, id, refid, now, parse ::
      Send(d, msgs, mentions, id, refid, now, parse).Rejected?
    ensures d.mentions == [] && !d.isPinned
  {
    Draft(None, None, None, "", false, [], map[])
  }

  /** `in`: post in the given thread. */
  function In(d: Draft, t: Threads.Thread): (c: Draft)
    ensures c.threadId == Some(t.id) && c.(threadId := d.threadId) == d
  {
    d.(threadId := Some(t.id))
  }

  /** `inThread`: post in the thread with the given id. */
  function InThread(d: Draft, threadId: nat): (c: Draft)
    ensures c.threadId == Some(threadId) && c.(threadId := d.threadId) == d
  {
    d.(threadId := Some(threadId))
  }

  /** `replyTo`: answer the given message, in the thread it belongs to,
      whatever thread was chosen before. */
  function ReplyTo(d: Draft, m: Message): (c: Draft)
    ensures c.parentId == Some(m.id) && c.threadId == Some(m.threadId)
    ensures c.(parentId := d.parentId, threadId := d.threadId) == d
  {
    d.(parentId := Some(m.id), threadId := Some(m.threadId))
  }

  /** `from`: sets the sender. */
  function From(d: Draft, userId: int): (c: Draft)
    ensures c.userId == Some(userId) && c.(userId := d.userId) == d
  {
    d.(userId := Some(userId))
  }

  function Body(d: Draft, body: string): (c: Draft)
    ensures c.body == body && c.(body := d.body) == d
  {
    d.(body := body)
  }

  /** `mentions`: the list is replaced verbatim, duplicates included. */
  function SetMentions(d: Draft, userIds: seq<int>): (c: Draft)
    ensures c.mentions == userIds && c.(mentions := d.mentions) == d
  {
    d.(mentions := userIds)
  }

  /** `mention`: the user is appended only when not mentioned yet. */
  function Mention(d: Draft, userId: int): (c: Draft)
    ensures userId in c.mentions
    ensures forall u :: u in c.mentions <==> u in d.mentions || u == userId
    ensures userId in d.mentions ==> c == d
    ensures Distinct(d.mentions) ==> Distinct(c.mentions)
    ensures c.(mentions := d.mentions) == d
  {
    d.(mentions := AppendIfAbsent(d.mentions, userId))
  }

  /** `mention` for each user in turn: on a duplicate-free list the result
      stays free of duplicates and mentions exactly the users seen so far;
      nothing else changes. */
  function MentionAll(d: Draft, userIds: seq<int>): (c: Draft)
    ensures Distinct(d.mentions) ==> Distinct(c.mentions)
    ensures forall u :: u in c.mentions <==> u in d.mentions || u in userIds
    ensures c.(mentions := d.mentions) == d
    decreases |userIds|
  {
    if |userIds| == 0 then d
    else
      assert forall u :: u in userIds <==> u == userIds[0] || u in userIds[1..] by {
        assert userIds == [userIds[0]] + userIds[1..];
      }
      MentionAll(Mention(d, userIds[0]), userIds[1..])
  }

  /** `pinned`. */
  function Pinned(d: Draft): (c: Draft)
    ensures c.isPinned && c.(isPinned := d.isPinned) == d
  {
    d.(isPinned := true)
  }

  /** `metadata`: the whole bag is replaced. */
  function SetMetadata(d: Draft, data: Metadata): (c: Draft)
    ensures c.metadata == data && c.(metadata := d.metadata) == d
  {
    d.(metadata := data)
  }

  /** `with`: one key is set, the rest of the bag is kept. */
  function With(d: Draft, key: string, value: MetaValue): (c: Draft)
    ensures c.metadata == WithKey(d.metadata, key, value) && c.(metadata := d.metadata) == d
    ensures key in c.metadata && c.metadata[key] == value
  {
    d.(metadata := WithKey(d.metadata, key, value))
  }

  /** `metadata` after `with` discards the key `with` set. */
  lemma MetadataReplacesWith(d: Draft, key: string, value: MetaValue, data: Metadata)
    ensures SetMetadata(With(d, key, value), data) == SetMetadata(d, data)
  {
  }

  /** The data array `send` passes to the manager: the mention list is
      always present. */
  function Input(d: Draft): (input: HubManager.MessageInput)
    ensures input.mentions == Some(d.mentions)
  {
    HubManager.MessageInput(d.threadId, d.parentId, d.userId, d.body, Some(d.isPinned), Some(d.mentions), Some(d.metadata))
  }

  /** `send`: the message takes the accumulated fields, and exactly the
      builder's mention list is stored; the body is never parsed. */
  function Send(d: Draft, msgs: seq<Message>, mentions: seq<Messages.Mention>, id: nat, refid: string,
                now: Time, parse: string -> seq<int>): (o: HubManager.PostOutcome)
    ensures o.Rejected? <==> d.threadId.None? || d.userId.None?
    ensures !o.Rejected? ==>
      && o.message.threadId == d.threadId.value && o.message.userId == d.userId.value
      && o.message.parentId == d.parentId && o.message.body == d.body
      && o.message.isPinned == d.isPinned && o.message.metadata == d.metadata
    ensures o.Posted? <==> (!o.Rejected? &&
      Distinct(d.mentions) && forall u :: u in d.mentions ==> Messages.Mention(id, u) !in mentions)
    ensures o.Posted? ==> forall u :: u in d.mentions ==> Messages.Mention(id, u) in o.mentions
    ensures o.Posted? ==> |o.mentions| == |mentions| + |d.mentions|
  {
    HubManager.PostMessage(msgs, mentions, id, refid, Input(d), now, parse)
  }

  /** Whatever the body says, the mention parser plays no part in `send`. */
  lemma SendIgnoresParser(d: Draft, msgs: seq<Message>, mentions: seq<Messages.Mention>, id: nat, refid: string,
                          now: Time, parse1: string -> seq<int>, parse2: string -> seq<int>)
    ensures Send(d, msgs, mentions, id, refid, now, parse1) == Send(d, msgs, mentions, id, refid, now, parse2)
  {
    HubManager.ExplicitMentionsIgnoreParser(msgs, mentions, id, refid, Input(d), now, parse1, parse2);
  }

  /** A message built with `mention` calls only, posted as a new message,
      stores one mention per distinct user. */
  lemma MentionedDraftPosts(d: Draft, userIds: seq<int>, msgs: seq<Message>, mentions: seq<Messages.Mention>,
                            id: nat, refid: string, now: Time, parse: string -> seq<int>)
    requires d.threadId.Some? && d.userId.Some? && d.mentions == []
    requires forall i :: 0 <= i < |mentions| ==> mentions[i].messageId != id
    ensures Send(MentionAll(d, userIds), msgs, mentions, id, refid, now, parse).Posted?
  {
  }
}

=== FILE: php_cast.dfy ===
/** The two PHP conversions the `hub:remind` command applies to its `--limit`
    option text: truthiness (for `?:`) and the `(int)` cast. */
module PhpCast {

  /** `PHP_INT_MAX` and `PHP_INT_MIN` on a 64-bit build. */
  const IntMax: int := 0x7FFF_FFFF_FFFF_FFFF
  const IntMin: int := -0x8000_0000_0000_0000

  /** A string is falsy in PHP exactly when it is empty or "0": every string
      of two or more characters is truthy, "00" and "0.0" included. */
  function Truthy(s: string): (b: bool)
    ensures |s| >= 2 ==> b
    ensures |s| == 1 ==> (b <==> s[0] != '0')
    ensures |s| == 0 ==> !b
  {
    s != "" && s != "0"
  }

  /** The whitespace a numeric string may start with. */
  predicate IsWhitespace(c: char) {
    c == ' ' || c == '\t' || c == '\n' || c == '\r' || c == '\U{0B}' || c == '\U{0C}'
  }

  predicate IsDigit(c: char) {
    '0' <= c <= '9'
  }

  predicate AllDigits(s: string) {
    forall i :: 0 <= i < |s| ==> IsDigit(s[i])
  }

  function DigitValue(c: char): nat
    requires IsDigit(c)
  {
    (c as int) - ('0' as int)
  }

  function DigitChar(d: nat): (c: char)
    requires d < 10
    ensures IsDigit(c) && DigitValue(c) == d
  {
    ('0' as int + d) as char
  }

  /** The number of leading whitespace characters of `s`. */
  function WhitespaceRun(s: string): (n: nat)
    ensures n <= |s|
    ensures forall i :: 0 <= i < n ==> IsWhitespace(s[i])
    ensures n < |s| ==> !IsWhitespace(s[n])
  {
    if |s| == 0 || !IsWhitespace(s[0]) then 0 else 1 + WhitespaceRun(s[1..])
  }

  /** The number of leading decimal digits of `s`. */
  function DigitRun(s: string): (n: nat)
    ensures n <= |s|
    ensures AllDigits(s[..n])
    ensures n < |s| ==> !IsDigit(s[n])
  {
    if |s| == 0 || !IsDigit(s[0]) then 0
    else
      var n := 1 + DigitRun(s[1..]);
      assert forall i :: 1 <= i < n ==> s[..n][i] == s[1..][..n - 1][i - 1];
      n
  }

  /** The value of a string of decimal digits, most significant first. */
  function DecimalValue(ds: string): nat
    requires AllDigits(ds)
  {
    if |ds| == 0 then 0
    else DecimalValue(ds[..|ds| - 1]) * 10 + DigitValue(ds[|ds| - 1])
  }

  /** Saturation to the 64-bit range, as PHP does for an out-of-range numeric string. */
  function Clamp(v: int): (c: int)
    ensures IntMin <= c <= IntMax
    ensures IntMin <= v <= IntMax ==> c == v
  {
    if v < IntMin then IntMin else if v > IntMax then IntMax else v
  }

  /** `(int) $s`: optional leading whitespace, an optional sign and the longest
      run of decimal digits; a string with no leading digits gives 0. */
  function IntCast(s: string): (v: int)
    ensures IntMin <= v <= IntMax
  {
    var t := s[WhitespaceRun(s)..];
    var negative := |t| > 0 && t[0] == '-';
    var u := if |t| > 0 && (t[0] == '-' || t[0] == '+') then t[1..] else t;
    var magnitude: int := DecimalValue(u[..DigitRun(u)]);
    Clamp(if negative then -magnitude else magnitude)
  }

  /** The canonical decimal rendering of a natural number. */
  function DecimalText(n: nat): (s: string)
    ensures |s| > 0 && AllDigits(s)
  {
    if n < 10 then [DigitChar(n)]
    else DecimalText(n / 10) + [DigitChar(n % 10)]
  }

  /** The decimal rendering of an integer, with a leading '-' when negative. */
  function IntText(n: int): string {
    if n < 0 then "-" + DecimalText(-n) else DecimalText(n)
  }

  lemma {:induction false} DecimalValueOfText(n: nat)
    ensures DecimalValue(DecimalText(n)) == n
  {
    if n >= 10 {
      var s := DecimalText(n);
      assert s[..|s| - 1] == DecimalText(n / 10);
      DecimalValueOfText(n / 10);
    }
  }

  lemma DigitRunOfDigits(s: string)
    requires AllDigits(s)
    ensures DigitRun(s) == |s|
  {
  }

  /** Casting the rendering of any 64-bit integer gives that integer back. */
  lemma IntCastOfText(n: int)
    requires IntMin <= n <= IntMax
    ensures IntCast(IntText(n)) == n
  {
    var s := IntText(n);
    var d := DecimalText(if n < 0 then -n else n);
    assert WhitespaceRun(s) == 0;
    assert s[0..] == s;
    DigitRunOfDigits(d);
    assert d[..|d|] == d;
    DecimalValueOfText(if n < 0 then -n else n);
    if n < 0 {
      assert s[1..] == d;
    }
  }

  /** A string that starts with neither whitespace, a sign nor a digit casts to 0. */
  lemma NonNumericCastsToZero(s: string)
    requires |s| > 0 && !IsWhitespace(s[0]) && !IsDigit(s[0]) && s[0] != '-' && s[0] != '+'
    ensures IntCast(s) == 0
  {
    assert s[0..] == s;
  }
}

=== FILE: remind_command.dfy ===
/** The `hub:remind` console command: one bounded pass over the due reminders
    with per-item failure isolation and success / failure counters. Console
    output is reduced to which notices would be shown. */
module RemindCommand {
  import opened Common
  import opened Reminders
  import opened DuePass
  import PhpCast

  /** The declared default of the `--limit` option and the fallback of `?:`. */
  const DefaultLimit: int := 100

  /** How `--limit` was given: not at all (the option's declared default
      applies), as a bare flag with no value (PHP null), or with a text value. */
  datatype LimitOption = Omitted | Valueless | Given(text: string)

  /** `Command::SUCCESS` and `Command::FAILURE`. */
  datatype ExitCode = Success | Failure

  /** What the command reports: its exit code, how many reminders it fetched,
      the two counters, and which of the closing notices it shows. */
  datatype Report = Report(
    exit: ExitCode,
    total: nat,
    success: nat,
    failed: nat,
    noneFound: bool,
    successNotice: bool,
    failureWarning: bool)

  /** `(int) ($input->getOption('limit') ?: 100)`. */
  function EffectiveLimit(o: LimitOption): (limit: int)
    ensures o.Omitted? || o.Valueless? || o == Given("") || o == Given("0") ==> limit == DefaultLimit
    ensures o.Given? && PhpCast.Truthy(o.text) ==> limit == PhpCast.IntCast(o.text)
  {
    match o
    case Omitted => DefaultLimit
    case Valueless => DefaultLimit
    case Given(text) => if PhpCast.Truthy(text) then PhpCast.IntCast(text) else DefaultLimit
  }

  /** `--limit=0` does not mean "no work": it falls back to 100, while any other
      written integer is taken as it is. */
  lemma LimitOfWrittenInteger(n: int)
    requires PhpCast.IntMin <= n <= PhpCast.IntMax
    ensures n == 0 ==> EffectiveLimit(Given(PhpCast.IntText(n))) == DefaultLimit
    ensures n != 0 ==> EffectiveLimit(Given(PhpCast.IntText(n))) == n
  {
    PhpCast.IntCastOfText(n);
    if n != 0 {
      var s := PhpCast.IntText(n);
      if n > 0 {
        assert s != "0" by {
          if n < 10 {
            assert s[0] == PhpCast.DigitChar(n);
          } else {
            assert |s| > 1;
          }
        }
      } else {
        assert s[0] == '-';
      }
    }
  }

  /** Texts such as "00" or "abc" are truthy but cast to 0, and "-5" is truthy
      and casts to -5, so each gives a limit of zero or less; no other route
      does. */
  lemma NonPositiveLimitOnlyFromTruthyText(o: LimitOption)
    ensures EffectiveLimit(o) <= 0 ==> o.Given? && PhpCast.Truthy(o.text) && PhpCast.IntCast(o.text) == EffectiveLimit(o)
    ensures EffectiveLimit(o) == 0 ==> o.Given? && PhpCast.Truthy(o.text) && PhpCast.IntCast(o.text) == 0
  {
  }

  /** `Reminder::due()->limit($limit)->get()`: up to `limit` rows of the due
      scope; a limit below one fetches nothing. The query names no order, so
      the model fixes one, the table order, and takes a prefix of it. */
  function Fetch(table: seq<Reminder>, now: Time, limit: int): (f: seq<Reminder>)
    ensures |f| <= |Due(table, now)|
    ensures limit >= 0 ==> |f| <= limit
    ensures limit >= 0 ==> |f| == |Due(table, now)| || |f| == limit
    ensures limit <= 0 ==> f == []
    ensures f == Due(table, now)[..|f|]
    ensures forall i :: 0 <= i < |f| ==> f[i] in table && InDueScope(f[i], now)
  {
    var due := Due(table, now);
    var n := if limit <= 0 then 0 else if limit < |due| then limit else |due|;
    assert forall i :: 0 <= i < |due| ==> InDueScope(due[i], now);
    due[..n]
  }

  /** The `foreach` of the command: every item is dispatched and transitioned
      inside its own `try`, so one failure never stops the others. */
  method ProcessBatch(fetched: seq<Reminder>, now: Time, cal: Calendar, fault: Reminder -> Fault)
    returns (success: nat, failed: nat, after: seq<Reminder>, notified: seq<Reminder>)
    ensures success + failed == |fetched|
    ensures success == |Filter(fetched, Succeeds(fault))|
    ensures |after| == |fetched|
    ensures forall i :: 0 <= i < |fetched| ==> after[i] == ItemResult(fetched[i], now, cal, fault)
    ensures notified == Filter(fetched, Notifies(fault))
  {
    success, failed := 0, 0;
    after, notified := [], [];
    var i := 0;
    while i < |fetched|
      invariant 0 <= i <= |fetched|
      invariant success + failed == i
      invariant success == |Filter(fetched[..i], Succeeds(fault))|
      invariant |after| == i
      invariant forall k :: 0 <= k < i ==> after[k] == ItemResult(fetched[k], now, cal, fault)
      invariant notified == Filter(fetched[..i], Notifies(fault))
    {
      var r := fetched[i];
      BatchStep(fetched, i, fault);
      // The dispatch comes first: when it throws, nothing else happens to the
      // item; when the save throws, the event has already gone out.
      after := after + [ItemResult(r, now, cal, fault)];
      if fault(r) != DispatchThrows {
        notified := notified + [r];
      }
      if fault(r) == NoFault {
        success := success + 1;
      } else {
        failed := failed + 1;
      }
      i := i + 1;
    }
    assert fetched[..i] == fetched;
  }

  /** What one more item adds to the success filter and the notified filter. */
  lemma BatchStep(fetched: seq<Reminder>, i: nat, fault: Reminder -> Fault)
    requires i < |fetched|
    ensures |Filter(fetched[..i + 1], Succeeds(fault))|
         == |Filter(fetched[..i], Succeeds(fault))| + (if fault(fetched[i]) == NoFault then 1 else 0)
    ensures Filter(fetched[..i + 1], Notifies(fault))
         == Filter(fetched[..i], Notifies(fault)) + (if fault(fetched[i]) != DispatchThrows then [fetched[i]] else [])
  {
    assert fetched[..i + 1] == fetched[..i] + [fetched[i]];
    FilterAppend(fetched[..i], fetched[i], Succeeds(fault));
    FilterAppend(fetched[..i], fetched[i], Notifies(fault));
  }

  /** `execute`: `queryFails` stands for an exception outside the per-item
      `try`, which is what exits with FAILURE; the model raises it only at the
      due query, before any item is processed.
      `after[i]` is the stored state of the i-th fetched reminder afterwards
      and `notified` the reminders whose due event was dispatched, in order. */
  method Execute(table: seq<Reminder>, option: LimitOption, now: Time, cal: Calendar,
                 queryFails: bool, fault: Reminder -> Fault)
    returns (report: Report, after: seq<Reminder>, notified: seq<Reminder>)
    ensures report.exit == Failure <==> queryFails
    ensures queryFails ==> report.total == 0 && after == [] && notified == []
    ensures !queryFails ==> report.total == |Fetch(table, now, EffectiveLimit(option))|
    ensures report.success + report.failed == report.total
    ensures report.noneFound <==> !queryFails && report.total == 0
    ensures report.successNotice <==> report.success > 0
    ensures report.failureWarning <==> report.failed > 0
    ensures |after| == report.total
    ensures !queryFails ==> forall i :: 0 <= i < |after| ==>
      after[i] == ItemResult(Fetch(table, now, EffectiveLimit(option))[i], now, cal, fault)
    ensures !queryFails ==> notified == Filter(Fetch(table, now, EffectiveLimit(option)), Notifies(fault))
  {
    if queryFails {
      report := Report(Failure, 0, 0, 0, false, false, false);
      after, notified := [], [];
      return;
    }
    var limit := EffectiveLimit(option);
    var fetched := Fetch(table, now, limit);
    if |fetched| == 0 {
      report := Report(Success, 0, 0, 0, true, false, false);
      after, notified := [], [];
      return;
    }
    var success, failed;
    success, failed, after, notified := ProcessBatch(fetched, now, cal, fault);
    report := Report(Success, |fetched|, success, failed, false, success > 0, failed > 0);
  }
}

=== FILE: reminder_builder.dfy ===
/** The fluent reminder builder: setters that accumulate the fields of a
    reminder, and `create`, which hands them to the manager service. */
module ReminderBuilder {
  import opened Common
  import opened RepeatInterval
  import Reminders
  import ReminderStatus
  import HubManager

  /** The builder's fields. `userId` is `None` until `for` is called: the
      typed property has no default and reading it earlier throws. */
  datatype Draft = Draft(
    userId: Option<int>,
    remindableType: Option<string>,
    remindableId: Option<int>,
    message: string,
    remindAt: Option<Time>,
    repeatInterval: Interval,
    metadata: Metadata)

  /** A builder as constructed: `create` refuses it until `for` names a user,
      whatever the table holds, and it describes a one-off reminder with an
      empty message and no metadata. */
  function New(): (d: Draft)
    ensures forall table, refid :: Create(d, table, refid) == Err(UserUnset)
    ensures d.repeatInterval == NoRepeat && d.message == "" && d.metadata == map[]
  {
    Draft(None, None, None, "", None, NoRepeat, map[])
  }

  /** `for`: sets the user to remind. */
  function For(d: Draft, userId: int): (c: Draft)
    ensures c.userId == Some(userId) && c.(userId := d.userId) == d
  {
    d.(userId := Some(userId))
  }

  /** `about`: attaches the reminder to a resource of the given class and id. */
  function About(d: Draft, kind: string, id: int): (c: Draft)
    ensures c.remindableType == Some(kind) && c.remindableId == Some(id)
    ensures c.(remindableType := d.remindableType, remindableId := d.remindableId) == d
  {
    d.(remindableType := Some(kind), remindableId := Some(id))
  }

  function SetMessage(d: Draft, message: string): (c: Draft)
    ensures c.message == message && c.(message := d.message) == d
  {
    d.(message := message)
  }

  /** `at`: the given time, verbatim. */
  function At(d: Draft, t: Time): (c: Draft)
    ensures c.remindAt == Some(t) && c.(remindAt := d.remindAt) == d
  {
    d.(remindAt := Some(t))
  }

  /** `inMinutes`: `now` plus the given number of minutes. */
  function InMinutes(d: Draft, now: Time, minutes: int): (c: Draft)
    ensures c.remindAt == Some(now + minutes * SecondsPerMinute) && c.(remindAt := d.remindAt) == d
  {
    At(d, now + minutes * SecondsPerMinute)
  }

  /** `inHours`: `now` plus the given number of hours. */
  function InHours(d: Draft, now: Time, hours: int): (c: Draft)
    ensures c.remindAt == Some(now + hours * SecondsPerHour) && c.(remindAt := d.remindAt) == d
  {
    At(d, now + hours * SecondsPerHour)
  }

  /** `inDays`: `now` plus the given number of days. */
  function InDays(d: Draft, now: Time, days: int): (c: Draft)
    ensures c.remindAt == Some(now + days * SecondsPerDay) && c.(remindAt := d.remindAt) == d
  {
    At(d, now + days * SecondsPerDay)
  }

  /** An hour is sixty minutes and a day twenty-four hours from the same `now`. */
  lemma RelativeSettersAgree(d: Draft, now: Time, n: int)
    ensures InHours(d, now, n) == InMinutes(d, now, 60 * n)
    ensures InDays(d, now, n) == InHours(d, now, 24 * n)
  {
  }

  /** `repeat` with an enum case, and `daily`, `weekly`, `monthly`. */
  function RepeatWith(d: Draft, interval: Interval): (c: Draft)
    ensures c.repeatInterval == interval && c.(repeatInterval := d.repeatInterval) == d
  {
    d.(repeatInterval := interval)
  }

  /** `daily`: the reminder repeats every day, and nothing else changes. */
  function Daily(d: Draft): (c: Draft)
    ensures RepeatInterval.Repeats(c.repeatInterval) && c.repeatInterval == RepeatInterval.Daily
    ensures c.(repeatInterval := d.repeatInterval) == d
  {
    RepeatWith(d, RepeatInterval.Daily)
  }

  /** `weekly`: the reminder repeats every week, and nothing else changes. */
  function Weekly(d: Draft): (c: Draft)
    ensures RepeatInterval.Repeats(c.repeatInterval) && c.repeatInterval == RepeatInterval.Weekly
    ensures c.(repeatInterval := d.repeatInterval) == d
  {
    RepeatWith(d, RepeatInterval.Weekly)
  }

  /** `monthly`: the reminder repeats every month, and nothing else changes. */
  function Monthly(d: Draft): (c: Draft)
    ensures RepeatInterval.Repeats(c.repeatInterval) && c.repeatInterval == RepeatInterval.Monthly
    ensures c.(repeatInterval := d.repeatInterval) == d
  {
    RepeatWith(d, RepeatInterval.Monthly)
  }

  /** `repeat` with a string: `RepeatInterval::from` throws on a string that
      is not one of the five backing values. */
  function Repeat(d: Draft, text: string): (r: Result<Draft, string>)
    ensures r.Ok? <==> RepeatInterval.From(text).Some?
    ensures r.Ok? ==> RepeatInterval.Value(r.value.repeatInterval) == text
    ensures r.Ok? ==> r.value.(repeatInterval := d.repeatInterval) == d
    ensures r.Err? ==> r.error == text
  {
    match RepeatInterval.From(text)
    case Some(interval) => Ok(RepeatWith(d, interval))
    case None => Err(text)
  }

  /** Every interval setter overwrites the previous one: the last call wins. */
  lemma LastIntervalWins(d: Draft, first: Interval, second: Interval)
    ensures RepeatWith(RepeatWith(d, first), second) == RepeatWith(d, second)
    ensures Monthly(Daily(d)) == Monthly(d) && Daily(Weekly(d)) == Daily(d) && Weekly(Monthly(d)) == Weekly(d)
  {
  }

  /** `metadata`: the whole bag is replaced. */
  function SetMetadata(d: Draft, data: Metadata): (c: Draft)
    ensures c.metadata == data && c.(metadata := d.metadata) == d
  {
    d.(metadata := data)
  }

  /** `with`: one key is set, the rest of the bag is kept. */
  function With(d: Draft, key: string, value: MetaValue): (c: Draft)
    ensures c.metadata == WithKey(d.metadata, key, value) && c.(metadata := d.metadata) == d
    ensures key in c.metadata && c.metadata[key] == value
  {
    d.(metadata := WithKey(d.metadata, key, value))
  }

  /** `metadata` after `with` discards the key `with` set; `with` after
      `metadata` adds to the new bag. */
  lemma MetadataReplacesWith(d: Draft, key: string, value: MetaValue, data: Metadata)
    ensures SetMetadata(With(d, key, value), data) == SetMetadata(d, data)
    ensures With(SetMetadata(d, data), key, value).metadata == WithKey(data, key, value)
  {
  }

  /** Why `create` fails: the user was never set, or the insert fails. */
  datatype CreateError = UserUnset | InsertFailed(cause: HubManager.InsertError)

  /** The data array `create` passes to the manager. */
  function Input(d: Draft, userId: int): HubManager.ReminderInput {
    HubManager.ReminderInput(userId, d.remindableType, d.remindableId, d.message, d.remindAt,
                             Some(d.repeatInterval), Some(d.metadata))
  }

  /** `create`: the accumulated fields, unchanged, become the new reminder. */
  function Create(d: Draft, table: seq<Reminders.Reminder>, refid: string)
    : (res: Result<(seq<Reminders.Reminder>, Reminders.Reminder), CreateError>)
    ensures d.userId.None? ==> res == Err(UserUnset)
    ensures d.userId.Some? && d.remindAt.None? ==> res == Err(InsertFailed(HubManager.NullRemindAt))
    ensures res.Ok? ==> res.value.0 == table + [res.value.1]
    ensures res.Ok? ==>
      var r := res.value.1;
      && Some(r.userId) == d.userId && r.refid == refid
      && r.remindableType == d.remindableType && r.remindableId == d.remindableId
      && r.message == d.message && Some(r.remindAt) == d.remindAt
      && r.repeatInterval == Some(d.repeatInterval) && r.metadata == d.metadata
      && r.status == ReminderStatus.Pending
    ensures d.userId.Some? && d.remindAt.Some? && (forall i :: 0 <= i < |table| ==> table[i].refid != refid) ==> res.Ok?
  {
    match d.userId
    case None => Err(UserUnset)
    case Some(userId) =>
      match HubManager.CreateReminder(table, refid, Input(d, userId))
      case Ok(created) => Ok(created)
      case Err(e) => Err(InsertFailed(e))
  }

  /** A fresh builder given only a user and a time creates a one-off reminder
      with an empty message and no metadata. */
  lemma NewDraftDefaults(userId: int, t: Time, table: seq<Reminders.Reminder>, refid: string)
    requires forall i :: 0 <= i < |table| ==> table[i].refid != refid
    ensures var res := Create(At(For(New(), userId), t), table, refid);
            && res.Ok?
            && !Reminders.Repeats(res.value.1)
            && res.value.1.message == "" && res.value.1.metadata == map[]
            && res.value.1.remindableType.None?
  {
  }

  /** A reminder set `minutes` ahead is not due now and enters the due scope
      when the minutes are up. */
  lemma InMinutesFiresLater(d: Draft, now: Time, minutes: int, table: seq<Reminders.Reminder>, refid: string)
    requires minutes > 0
    requires Create(InMinutes(d, now, minutes), table, refid).Ok?
    ensures var r := Create(InMinutes(d, now, minutes), table, refid).value.1;
            && !Reminders.IsDue(r, now) && !Reminders.InDueScope(r, now)
            && Reminders.InDueScope(r, now + minutes * SecondsPerMinute)
  {
  }
}

=== FILE: reminder_status.dfy ===
/** The closed set of reminder lifecycle states (`hub_reminder.status`). */
module ReminderStatus {
  import opened Common

  datatype Status = Pending | Completed | Snoozed | Cancelled

  /** The string stored in the `status` column for each case. */
  function Value(s: Status): string {
    match s
    case Pending => "pending"
    case Completed => "completed"
    case Snoozed => "snoozed"
    case Cancelled => "cancelled"
  }

  /** `ReminderStatus::tryFrom`: the case whose backing value is `text`, if any. */
  function From(text: string): (r: Option<Status>)
    ensures r.Some? ==> Value(r.value) == text
    ensures r.None? <==> forall s: Status :: Value(s) != text
  {
    if text == "pending" then Some(Pending)
    else if text == "completed" then Some(Completed)
    else if text == "snoozed" then Some(Snoozed)
    else if text == "cancelled" then Some(Cancelled)
    else None
  }

  /** Parsing a case's own backing value gives that case back, so the four
      backing values are pairwise distinct. */
  lemma FromValue(s: Status)
    ensures From(Value(s)) == Some(s)
  {
  }

  lemma ValueInjective(a: Status, b: Status)
    ensures Value(a) == Value(b) ==> a == b
  {
    FromValue(a);
    FromValue(b);
  }

  /** The human-readable label; every case has a non-empty one. */
  function Label(s: Status): (l: string)
    ensures |l| > 0
  {
    match s
    case Pending => "Pending"
    case Completed => "Completed"
    case Snoozed => "Snoozed"
    case Cancelled => "Cancelled"
  }

  /** No two cases share a label. */
  lemma LabelInjective(a: Status, b: Status)
    ensures Label(a) == Label(b) ==> a == b
  {
  }

  /** A reminder in an active state can still fire; exactly the two terminal
      states are inactive. */
  function IsActive(s: Status): (b: bool)
    ensures b <==> !(s == Completed || s == Cancelled)
  {
    s == Pending || s == Snoozed
  }
}

=== FILE: reminders.dfy ===
/** The reminder record (`hub_reminder`), its lifecycle transitions and the
    due / pending / upcoming / per-user selections over a table of reminders. */
module Reminders {
  import opened Common
  import opened ReminderStatus
  import opened RepeatInterval

  /** One row of `hub_reminder`. The bookkeeping columns `id`, `created_at`
      and `updated_at` are not modelled; `refid` is the public key.
      `snoozeCount` is `None` on a freshly created record whose column default
      has not been loaded, which the source reads as 0. */
  datatype Reminder = Reminder(
    refid: string,
    userId: int,
    remindableType: Option<string>,
    remindableId: Option<int>,
    message: string,
    remindAt: Time,
    repeatInterval: Option<Interval>,
    status: Status,
    completedAt: Option<Time>,
    snoozedUntil: Option<Time>,
    snoozeCount: Option<nat>,
    metadata: Metadata)

  /** Month and year arithmetic of the date helper. Whether it clamps the day
      of the month or overflows into the next month is not known here, so it
      is a parameter of every operation that needs it. */
  datatype Calendar = Calendar(addMonth: Time -> Time, addYear: Time -> Time)

  /** The snooze length used when the caller gives none. */
  const DefaultSnoozeMinutes: int := 15

  /** The `refid` column is unique. */
  predicate RefidsUnique(rs: seq<Reminder>) {
    forall i, j :: 0 <= i < j < |rs| ==> rs[i].refid != rs[j].refid
  }

  /** The identity and payload of a reminder: what no lifecycle transition touches. */
  predicate SamePayload(a: Reminder, b: Reminder) {
    && a.refid == b.refid
    && a.userId == b.userId
    && a.remindableType == b.remindableType
    && a.remindableId == b.remindableId
    && a.message == b.message
    && a.repeatInterval == b.repeatInterval
    && a.metadata == b.metadata
  }

  /** The time at which the reminder fires: the snooze end when one is set,
      otherwise the scheduled time. */
  function EffectiveTime(r: Reminder): Time {
    r.snoozedUntil.OrElse(r.remindAt)
  }

  /** The snooze counter, with an unloaded value read as 0. */
  function SnoozeCount(r: Reminder): nat {
    r.snoozeCount.OrElse(0)
  }

  // ---------------------------------------------------------------------------
  // Predicates on one record

  /** `isDue`: an active reminder whose effective time lies strictly in the past. */
  function IsDue(r: Reminder, now: Time): (due: bool)
    ensures !IsActive(r.status) ==> !due
    ensures r.snoozedUntil.Some? ==> (due <==> IsActive(r.status) && r.snoozedUntil.value < now)
    ensures r.snoozedUntil.None? ==> (due <==> IsActive(r.status) && r.remindAt < now)
  {
    if !IsActive(r.status) then false
    else
      var checkTime := EffectiveTime(r);
      checkTime < now
  }

  /** `repeats`: a missing interval counts as not repeating. */
  function Repeats(r: Reminder): (b: bool)
    ensures b <==> r.repeatInterval.Some? && r.repeatInterval.value in {Daily, Weekly, Monthly, Yearly}
    ensures r.repeatInterval == Some(NoRepeat) ==> !b
  {
    match r.repeatInterval
    case Some(i) => RepeatInterval.Repeats(i)
    case None => false
  }

  /** The row condition of the `due` query scope, written as the SQL states it. */
  predicate InDueScope(r: Reminder, now: Time) {
    && (r.status == Pending || r.status == Snoozed)
    && (|| (r.snoozedUntil.None? && r.remindAt <= now)
        || (r.snoozedUntil.Some? && r.snoozedUntil.value <= now))
  }

  /** The due scope is "active and the effective time is not after now". */
  lemma DueScopeByEffectiveTime(r: Reminder, now: Time)
    ensures InDueScope(r, now) <==> IsActive(r.status) && EffectiveTime(r) <= now
  {
  }

  /** `isDue` and the due scope agree except when the effective time is exactly
      `now`: there the scope selects the reminder and `isDue` rejects it. */
  lemma IsDueVersusDueScope(r: Reminder, now: Time)
    ensures IsDue(r, now) ==> InDueScope(r, now)
    ensures InDueScope(r, now) && !IsDue(r, now) <==> IsActive(r.status) && EffectiveTime(r) == now
    ensures IsDue(r, now) <==> InDueScope(r, now - 1)
  {
  }

  // ---------------------------------------------------------------------------
  // Lifecycle transitions. None of them checks the current status.

  /** `complete`: the reminder becomes completed at `now` and never fires again. */
  function Complete(r: Reminder, now: Time): (c: Reminder)
    ensures c.status == Completed && c.completedAt == Some(now)
    ensures forall t: Time :: !IsDue(c, t) && !InDueScope(c, t)
    ensures SamePayload(c, r)
    ensures c.remindAt == r.remindAt && c.snoozedUntil == r.snoozedUntil && c.snoozeCount == r.snoozeCount
  {
    r.(status := Completed, completedAt := Some(now))
  }

  /** `snooze(minutes)`: the reminder fires again exactly once the snooze ends,
      whatever its scheduled time, and the snooze counter grows by one. */
  function Snooze(r: Reminder, now: Time, minutes: int): (c: Reminder)
    ensures c.status == Snoozed
    ensures SnoozeCount(c) == SnoozeCount(r) + 1
    ensures EffectiveTime(c) == now + minutes * SecondsPerMinute
    ensures forall t: Time :: IsDue(c, t) <==> now + minutes * SecondsPerMinute < t
    ensures forall t: Time :: InDueScope(c, t) <==> now + minutes * SecondsPerMinute <= t
    ensures SamePayload(c, r)
    ensures c.remindAt == r.remindAt && c.completedAt == r.completedAt
  {
    r.(status := Snoozed,
       snoozedUntil := Some(now + minutes * SecondsPerMinute),
       snoozeCount := Some(SnoozeCount(r) + 1))
  }

  /** `snooze()` with no argument. */
  function SnoozeDefault(r: Reminder, now: Time): (c: Reminder)
    ensures c == Snooze(r, now, DefaultSnoozeMinutes)
    ensures EffectiveTime(c) == now + 900
  {
    Snooze(r, now, DefaultSnoozeMinutes)
  }

  /** Two snoozes add two to the counter; the second one's end replaces the first's. */
  lemma SnoozeTwice(r: Reminder, now1: Time, m1: int, now2: Time, m2: int)
    ensures SnoozeCount(Snooze(Snooze(r, now1, m1), now2, m2)) == SnoozeCount(r) + 2
    ensures Snooze(Snooze(r, now1, m1), now2, m2).snoozedUntil == Some(now2 + m2 * SecondsPerMinute)
  {
  }

  /** `cancel`: only the status changes, and the reminder never fires again. */
  function Cancel(r: Reminder): (c: Reminder)
    ensures c.status == Cancelled
    ensures forall t: Time :: !IsDue(c, t) && !InDueScope(c, t)
    ensures SamePayload(c, r)
    ensures c.remindAt == r.remindAt && c.completedAt == r.completedAt
    ensures c.snoozedUntil == r.snoozedUntil && c.snoozeCount == r.snoozeCount
  {
    r.(status := Cancelled)
  }

  /** The next occurrence after `at` under `interval`, as the `match` in
      `rescheduleNext` computes it; its fallback arm gives `None`. */
  function NextOccurrence(interval: Option<Interval>, at: Time, cal: Calendar): (next: Option<Time>)
    ensures next.Some? <==> interval.Some? && RepeatInterval.Repeats(interval.value)
    ensures interval == Some(Daily) ==> next == Some(at + SecondsPerDay)
    ensures interval == Some(Weekly) ==> next == Some(at + SecondsPerWeek)
    ensures interval == Some(Monthly) ==> next == Some(cal.addMonth(at))
    ensures interval == Some(Yearly) ==> next == Some(cal.addYear(at))
  {
    match interval
    case Some(Daily) => Some(at + SecondsPerDay)
    case Some(Weekly) => Some(at + SecondsPerWeek)
    case Some(Monthly) => Some(cal.addMonth(at))
    case Some(Yearly) => Some(cal.addYear(at))
    case _ => None
  }

  /** `rescheduleNext`: a non-repeating reminder is left as it is; a repeating
      one moves to the next occurrence of its current scheduled time and
      becomes a fresh pending reminder. */
  function RescheduleNext(r: Reminder, cal: Calendar): (c: Reminder)
    ensures !Repeats(r) ==> c == r
    ensures Repeats(r) ==>
      && c.status == Pending
      && c.snoozedUntil == None
      && SnoozeCount(c) == 0
      && Some(c.remindAt) == NextOccurrence(r.repeatInterval, r.remindAt, cal)
      && EffectiveTime(c) == c.remindAt
    ensures SamePayload(c, r) && c.completedAt == r.completedAt
  {
    if !Repeats(r) then r
    else
      match NextOccurrence(r.repeatInterval, r.remindAt, cal)
      case Some(next) =>
        r.(remindAt := next, status := Pending, snoozedUntil := None, snoozeCount := Some(0))
      case None => r
  }

  /** The next occurrence is computed from the scheduled time alone: the
      current status, snooze end and snooze counter make no difference. */
  lemma RescheduleIgnoresSnooze(r: Reminder, cal: Calendar, s: Status, until: Option<Time>, count: Option<nat>)
    requires Repeats(r)
    ensures RescheduleNext(r.(status := s, snoozedUntil := until, snoozeCount := count), cal)
         == RescheduleNext(r, cal)
  {
  }

  /** The transition applied to each due reminder by a processing pass:
      repeating reminders are rescheduled, all others completed. */
  function Advance(r: Reminder, now: Time, cal: Calendar): (c: Reminder)
    ensures Repeats(r) ==> c.status == Pending && c.snoozedUntil == None && SnoozeCount(c) == 0
    ensures Repeats(r) ==> Some(c.remindAt) == NextOccurrence(r.repeatInterval, r.remindAt, cal)
    ensures !Repeats(r) ==> c.status == Completed && c.completedAt == Some(now)
    ensures !Repeats(r) ==> forall t: Time :: !InDueScope(c, t)
    ensures SamePayload(c, r)
  {
    if Repeats(r) then RescheduleNext(r, cal) else Complete(r, now)
  }

  /** A daily reminder more than a day overdue is still due after one pass,
      because the next occurrence is counted from the old scheduled time and
      not from `now`: a second pass at the same `now` processes it again. */
  lemma OverdueDailyStaysDue(r: Reminder, now: Time, cal: Calendar)
    requires r.repeatInterval == Some(Daily)
    requires r.remindAt + SecondsPerDay <= now
    ensures InDueScope(Advance(r, now, cal), now)
  {
  }

  /** A daily reminder less than a day overdue leaves the due set. */
  lemma RecentDailyLeavesDueSet(r: Reminder, now: Time, cal: Calendar)
    requires r.repeatInterval == Some(Daily)
    requires now < r.remindAt + SecondsPerDay
    ensures !InDueScope(Advance(r, now, cal), now)
  {
  }

  // ---------------------------------------------------------------------------
  // Query scopes over a table

  /** The `due` scope: the rows that are active and whose effective time is not after `now`. */
  function Due(rs: seq<Reminder>, now: Time): (d: seq<Reminder>)
    ensures forall i :: 0 <= i < |d| ==> d[i] in rs && IsActive(d[i].status) && EffectiveTime(d[i]) <= now
    ensures forall i :: 0 <= i < |rs| && IsActive(rs[i].status) && EffectiveTime(rs[i]) <= now ==> rs[i] in d
    ensures forall i :: 0 <= i < |d| ==> d[i].status != Completed && d[i].status != Cancelled
  {
    var keep := (r: Reminder) => InDueScope(r, now);
    FilterContents(rs, keep);
    Filter(rs, keep)
  }

  /** The `due` scope keeps each selected row as often as the table holds it. */
  lemma DueMultiplicity(rs: seq<Reminder>, now: Time)
    ensures forall x :: multiset(Due(rs, now))[x] == if IsActive(x.status) && EffectiveTime(x) <= now then multiset(rs)[x] else 0
  {
    var keep := (r: Reminder) => InDueScope(r, now);
    FilterMultiset(rs, keep);
    forall x: Reminder ensures (IsActive(x.status) && EffectiveTime(x) <= now) == keep(x) {
      DueScopeByEffectiveTime(x, now);
    }
  }

  /** The `pending` scope. */
  function PendingOnly(rs: seq<Reminder>): (p: seq<Reminder>)
    ensures forall i :: 0 <= i < |p| ==> p[i] in rs && p[i].status == Pending
    ensures forall i :: 0 <= i < |rs| && rs[i].status == Pending ==> rs[i] in p
    ensures forall x :: multiset(p)[x] == if x.status == Pending then multiset(rs)[x] else 0
  {
    var keep := (r: Reminder) => r.status == Pending;
    FilterContents(rs, keep);
    FilterMultiset(rs, keep);
    Filter(rs, keep)
  }

  /** The row condition of the `forUser` scope. */
  function OfUser(userId: int): Reminder -> bool {
    (r: Reminder) => r.userId == userId
  }

  /** The `forUser` scope. */
  function ForUser(rs: seq<Reminder>, userId: int): (p: seq<Reminder>)
    ensures forall i :: 0 <= i < |p| ==> p[i] in rs && p[i].userId == userId
    ensures forall i :: 0 <= i < |rs| && rs[i].userId == userId ==> rs[i] in p
    ensures forall x :: multiset(p)[x] == if x.userId == userId then multiset(rs)[x] else 0
  {
    FilterContents(rs, OfUser(userId));
    FilterMultiset(rs, OfUser(userId));
    Filter(rs, OfUser(userId))
  }

  predicate SortedByTime(rs: seq<Reminder>) {
    forall i, j :: 0 <= i < j < |rs| ==> rs[i].remindAt <= rs[j].remindAt
  }

  function InsertByTime(x: Reminder, rs: seq<Reminder>): (r: seq<Reminder>)
    requires SortedByTime(rs)
    ensures SortedByTime(r)
    ensures multiset(r) == multiset(rs) + multiset{x}
    ensures |r| == |rs| + 1
    ensures r[0] == x || (|rs| > 0 && r[0] == rs[0])
  {
    if |rs| == 0 then [x]
    else if x.remindAt <= rs[0].remindAt then [x] + rs
    else
      var rest := InsertByTime(x, rs[1..]);
      assert rs == [rs[0]] + rs[1..];
      assert rs[0].remindAt <= rest[0].remindAt;
      [rs[0]] + rest
  }

  /** `orderBy('remind_at', 'asc')`: the same rows, ascending by scheduled time. */
  function SortByTime(rs: seq<Reminder>): (r: seq<Reminder>)
    ensures SortedByTime(r)
    ensures multiset(r) == multiset(rs)
  {
    if |rs| == 0 then []
    else
      assert rs == [rs[0]] + rs[1..];
      InsertByTime(rs[0], SortByTime(rs[1..]))
  }

  /** Two sequences holding the same multiset hold the same elements. */
  lemma SameElements(a: seq<Reminder>, b: seq<Reminder>)
    requires multiset(a) == multiset(b)
    ensures forall y :: y in a <==> y in b
  {
    forall y ensures y in a <==> y in b {
      assert y in a <==> y in multiset(a);
      assert y in b <==> y in multiset(b);
    }
  }

  /** The row condition of the `upcoming` scope: pending and scheduled no
      later than `future`. */
  function UpcomingRow(future: Time): Reminder -> bool {
    (r: Reminder) => r.status == Pending && r.remindAt <= future
  }

  /** The instant `days` days after `now`, counting fixed-length days. */
  function Horizon(now: Time, days: int): Time {
    now + days * SecondsPerDay
  }

  /** The `upcoming(days)` scope: pending rows scheduled no later than `days`
      days from now, earliest first, each selected row exactly once. */
  function Upcoming(rs: seq<Reminder>, now: Time, days: int): (u: seq<Reminder>)
    ensures SortedByTime(u)
    ensures forall x :: x in u <==> x in rs && x.status == Pending && x.remindAt <= Horizon(now, days)
    ensures multiset(u) == multiset(Filter(rs, UpcomingRow(Horizon(now, days))))
  {
    var future := Horizon(now, days);
    var sorted := SortByTime(Filter(rs, UpcomingRow(future)));
    UpcomingSelection(rs, future, sorted);
    sorted
  }

  /** Any arrangement of the rows the upcoming condition keeps holds exactly
      the pending rows scheduled no later than `future`. */
  lemma UpcomingSelection(rs: seq<Reminder>, future: Time, u: seq<Reminder>)
    requires multiset(u) == multiset(Filter(rs, UpcomingRow(future)))
    ensures forall x :: x in u <==> x in rs && x.status == Pending && x.remindAt <= future
  {
    var keep := UpcomingRow(future);
    FilterContents(rs, keep);
    forall x ensures x in u <==> x in rs && x.status == Pending && x.remindAt <= future {
      assert x in u <==> x in multiset(u);
      assert x in Filter(rs, keep) <==> x in multiset(Filter(rs, keep));
      assert keep(x) <==> x.status == Pending && x.remindAt <= future;
    }
  }

  /** The default window of `upcoming` is seven days. */
  function UpcomingWeek(rs: seq<Reminder>, now: Time): (u: seq<Reminder>)
    ensures forall i :: 0 <= i < |u| ==> u[i].remindAt <= now + SecondsPerWeek
    ensures u == Upcoming(rs, now, 7)
  {
    Upcoming(rs, now, 7)
  }
}

=== FILE: repeat_interval.dfy ===
/** The recurrence rule of a reminder (`hub_reminder.repeat_interval`). */
module RepeatInterval {
  import opened Common

  /** `NoRepeat` is the source's `NONE` case. */
  datatype Interval = NoRepeat | Daily | Weekly | Monthly | Yearly

  /** The string stored in the `repeat_interval` column for each case. */
  function Value(i: Interval): string {
    match i
    case NoRepeat => "none"
    case Daily => "daily"
    case Weekly => "weekly"
    case Monthly => "monthly"
    case Yearly => "yearly"
  }

  /** `RepeatInterval::tryFrom`: the case whose backing value is `text`, if any
      (`from` throws exactly where this gives `None`). */
  function From(text: string): (r: Option<Interval>)
    ensures r.Some? ==> Value(r.value) == text
    ensures r.None? <==> forall i: Interval :: Value(i) != text
  {
    if text == "none" then Some(NoRepeat)
    else if text == "daily" then Some(Daily)
    else if text == "weekly" then Some(Weekly)
    else if text == "monthly" then Some(Monthly)
    else if text == "yearly" then Some(Yearly)
    else None
  }

  lemma FromValue(i: Interval)
    ensures From(Value(i)) == Some(i)
  {
  }

  /** Parsing is injective: two cases with the same backing value are the same case. */
  lemma ValueInjective(a: Interval, b: Interval)
    ensures Value(a) == Value(b) ==> a == b
  {
    FromValue(a);
    FromValue(b);
  }

  function Label(i: Interval): (l: string)
    ensures |l| > 0
    ensures i == NoRepeat ==> l == "Does not repeat"
  {
    match i
    case NoRepeat => "Does not repeat"
    case Daily => "Daily"
    case Weekly => "Weekly"
    case Monthly => "Monthly"
    case Yearly => "Yearly"
  }

  lemma LabelInjective(a: Interval, b: Interval)
    ensures Label(a) == Label(b) ==> a == b
  {
  }

  /** Every repeating case is one of the four calendar steps, so a match over
      those four with a fallback arm never reaches the fallback. */
  function Repeats(i: Interval): (b: bool)
    ensures b <==> i in {Daily, Weekly, Monthly, Yearly}
  {
    i != NoRepeat
  }
}

=== FILE: thread.dfy ===
/** Threads (`hub_thread`) and the membership queries over the member table:
    lookup, owner-safe removal, unread counts, pinning and the thread scopes. */
module Threads {
  import opened Common
  import opened ThreadRole
  import opened Members
  import opened Messages

  datatype Thread = Thread(
    id: nat,
    refid: string,
    threadableType: Option<string>,
    threadableId: Option<int>,
    title: Option<string>,
    isPinned: bool,
    metadata: Metadata,
    createdBy: Option<int>)

  /** The member row belongs to user `userId` in thread `threadId`. */
  predicate IsRowOf(m: ThreadMember, threadId: nat, userId: int) {
    m.threadId == threadId && m.userId == userId
  }

  /** `(thread_id, user_id)` is unique in `hub_member`. */
  predicate MembersUnique(ms: seq<ThreadMember>) {
    forall i, j :: 0 <= i < j < |ms| ==> !(ms[i].threadId == ms[j].threadId && ms[i].userId == ms[j].userId)
  }

  /** The position of the first row of `userId` in `threadId` at or after `from`. */
  function MemberIndexFrom(ms: seq<ThreadMember>, threadId: nat, userId: int, from: nat): (k: Option<nat>)
    requires from <= |ms|
    ensures k.Some? ==> from <= k.value < |ms| && IsRowOf(ms[k.value], threadId, userId)
    ensures k.Some? ==> forall j :: from <= j < k.value ==> !IsRowOf(ms[j], threadId, userId)
    ensures k.None? ==> forall j :: from <= j < |ms| ==> !IsRowOf(ms[j], threadId, userId)
    decreases |ms| - from
  {
    if from == |ms| then None
    else if IsRowOf(ms[from], threadId, userId) then Some(from)
    else MemberIndexFrom(ms, threadId, userId, from + 1)
  }

  function MemberIndex(ms: seq<ThreadMember>, threadId: nat, userId: int): Option<nat> {
    MemberIndexFrom(ms, threadId, userId, 0)
  }

  /** `getMember`: the first row of the user in the thread, if any. */
  function GetMember(ms: seq<ThreadMember>, threadId: nat, userId: int): (m: Option<ThreadMember>)
    ensures m.Some? ==> m.value in ms && IsRowOf(m.value, threadId, userId)
    ensures m.None? <==> forall i :: 0 <= i < |ms| ==> !IsRowOf(ms[i], threadId, userId)
  {
    match MemberIndex(ms, threadId, userId)
    case Some(k) => Some(ms[k])
    case None => None
  }

  /** `hasMember`: some member row of the thread has the user. */
  function HasMember(ms: seq<ThreadMember>, threadId: nat, userId: int): (b: bool)
    ensures b <==> exists i :: 0 <= i < |ms| && ms[i].threadId == threadId && ms[i].userId == userId
  {
    MemberIndex(ms, threadId, userId).Some?
  }

  /** In a table with unique keys, the row of a user is the only one with that key. */
  lemma UniqueRow(ms: seq<ThreadMember>, threadId: nat, userId: int, i: nat)
    requires MembersUnique(ms)
    requires i < |ms| && IsRowOf(ms[i], threadId, userId)
    ensures GetMember(ms, threadId, userId) == Some(ms[i])
  {
  }

  /** The table without row `k`: every later row moves up by one. */
  function RemoveAt(ms: seq<ThreadMember>, k: nat): (r: seq<ThreadMember>)
    requires k < |ms|
    ensures |r| == |ms| - 1
    ensures forall i :: 0 <= i < |r| ==> r[i] == ms[if i < k then i else i + 1]
  {
    ms[..k] + ms[k + 1..]
  }

  /** Deleting a row keeps every other row, adds none and keeps keys unique. */
  lemma RemoveAtKeeps(ms: seq<ThreadMember>, k: nat)
    requires k < |ms|
    ensures forall i :: 0 <= i < |ms| && i != k ==> ms[i] in RemoveAt(ms, k)
    ensures forall x :: x in RemoveAt(ms, k) ==> x in ms
    ensures MembersUnique(ms) ==> MembersUnique(RemoveAt(ms, k))
  {
    var r := RemoveAt(ms, k);
    forall i | 0 <= i < |ms| && i != k ensures ms[i] in r {
      if i < k { assert r[i] == ms[i]; } else { assert r[i - 1] == ms[i]; }
    }
    forall x | x in r ensures x in ms {
      var j :| 0 <= j < |r| && r[j] == x;
      assert r[j] == ms[if j < k then j else j + 1];
    }
    if MembersUnique(ms) {
      forall i, j | 0 <= i < j < |r| ensures !(r[i].threadId == r[j].threadId && r[i].userId == r[j].userId) {
        var i', j' := if i < k then i else i + 1, if j < k then j else j + 1;
        assert r[i] == ms[i'] && r[j] == ms[j'] && i' < j';
      }
    }
  }

  /** `removeMember`: the user's row is deleted unless it is an owner's; a user
      without a row changes nothing. */
  function RemoveMember(ms: seq<ThreadMember>, threadId: nat, userId: int): (r: seq<ThreadMember>)
    ensures GetMember(ms, threadId, userId).None? ==> r == ms
    ensures GetMember(ms, threadId, userId).Some? && IsOwner(GetMember(ms, threadId, userId).value) ==> r == ms
    ensures GetMember(ms, threadId, userId).Some? && !IsOwner(GetMember(ms, threadId, userId).value) ==> |r| == |ms| - 1
    ensures forall i :: 0 <= i < |ms| && IsOwner(ms[i]) ==> ms[i] in r
    ensures forall i :: 0 <= i < |ms| && !IsRowOf(ms[i], threadId, userId) ==> ms[i] in r
    ensures forall x :: x in r ==> x in ms
    ensures MembersUnique(ms) ==> MembersUnique(r)
    ensures MembersUnique(ms) ==> (HasMember(r, threadId, userId) <==>
      HasMember(ms, threadId, userId) && IsOwner(GetMember(ms, threadId, userId).value))
  {
    match MemberIndex(ms, threadId, userId)
    case None => ms
    case Some(k) =>
      if IsOwner(ms[k]) then ms
      else
        RemoveAtKeeps(ms, k);
        RemoveAt(ms, k)
  }

  /** The row condition of the `messages` relation of a thread. */
  function OfThread(threadId: nat): Message -> bool {
    (m: Message) => m.threadId == threadId
  }

  /** The messages of a thread. */
  function ThreadMessages(msgs: seq<Message>, threadId: nat): seq<Message> {
    Filter(msgs, OfThread(threadId))
  }

  /** `getMessageCount`: never more than the table holds, and zero exactly
      when no row belongs to the thread. */
  function MessageCount(msgs: seq<Message>, threadId: nat): (n: nat)
    ensures n <= |msgs|
    ensures n == 0 <==> forall i :: 0 <= i < |msgs| ==> msgs[i].threadId != threadId
  {
    MessageCountZero(msgs, threadId);
    |ThreadMessages(msgs, threadId)|
  }

  lemma MessageCountZero(msgs: seq<Message>, threadId: nat)
    ensures ThreadMessages(msgs, threadId) == [] <==> forall i :: 0 <= i < |msgs| ==> msgs[i].threadId != threadId
  {
    var keep := OfThread(threadId);
    if forall i :: 0 <= i < |msgs| ==> msgs[i].threadId != threadId {
      assert forall i :: 0 <= i < |msgs| ==> !keep(msgs[i]);
      FilterNone(msgs, keep);
    } else {
      var i :| 0 <= i < |msgs| && msgs[i].threadId == threadId;
      FilterContents(msgs, keep);
      assert keep(msgs[i]);
      assert msgs[i] in ThreadMessages(msgs, threadId);
    }
  }

  /** Writing one more message row raises the thread's count by one exactly
      when the row belongs to the thread. */
  lemma MessageCountAfterPost(msgs: seq<Message>, m: Message, threadId: nat)
    ensures MessageCount(msgs + [m], threadId) == MessageCount(msgs, threadId) + (if m.threadId == threadId then 1 else 0)
  {
    FilterAppend(msgs, m, OfThread(threadId));
  }

  /** The thread's messages whose creation time is known and strictly after
      `since` (a null `created_at` never compares greater in SQL). */
  function MessagesAfter(msgs: seq<Message>, threadId: nat, since: Time): seq<Message> {
    Filter(ThreadMessages(msgs, threadId), (m: Message) => m.createdAt.Some? && m.createdAt.value > since)
  }

  /** `getUnreadCount`: every message of the thread is unread for a non-member
      or a member who never read it; otherwise the messages created strictly
      after the member's read marker are. Never more than the thread holds. */
  function UnreadCount(ms: seq<ThreadMember>, msgs: seq<Message>, threadId: nat, userId: int): (n: nat)
    ensures n <= MessageCount(msgs, threadId)
    ensures GetMember(ms, threadId, userId).None? ==> n == MessageCount(msgs, threadId)
    ensures GetMember(ms, threadId, userId).Some? && GetMember(ms, threadId, userId).value.lastReadAt.None?
      ==> n == MessageCount(msgs, threadId)
    ensures GetMember(ms, threadId, userId).Some? && GetMember(ms, threadId, userId).value.lastReadAt.Some?
      ==> n == |MessagesAfter(msgs, threadId, GetMember(ms, threadId, userId).value.lastReadAt.value)|
  {
    match GetMember(ms, threadId, userId)
    case None => MessageCount(msgs, threadId)
    case Some(member) =>
      match member.lastReadAt
      case None => MessageCount(msgs, threadId)
      case Some(since) => |MessagesAfter(msgs, threadId, since)|
  }

  /** A member who has read the thread at a time no earlier than every
      message's creation has nothing unread. */
  lemma {:induction false} NothingUnreadAfterLatest(msgs: seq<Message>, threadId: nat, since: Time)
    requires forall i :: 0 <= i < |msgs| && msgs[i].createdAt.Some? ==> msgs[i].createdAt.value <= since
    ensures |MessagesAfter(msgs, threadId, since)| == 0
  {
    var inThread := (m: Message) => m.threadId == threadId;
    var newer := (m: Message) => m.createdAt.Some? && m.createdAt.value > since;
    var mine := Filter(msgs, inThread);
    FilterContents(msgs, inThread);
    assert forall i :: 0 <= i < |mine| ==> mine[i] in msgs;
    FilterNone(mine, newer);
  }

  /** `pin`: only the flag changes, to true. */
  function Pin(t: Thread): (c: Thread)
    ensures c.isPinned
    ensures c.(isPinned := t.isPinned) == t
  {
    t.(isPinned := true)
  }

  /** `unpin`: only the flag changes, to false. */
  function Unpin(t: Thread): (c: Thread)
    ensures !c.isPinned
    ensures c.(isPinned := t.isPinned) == t
  {
    t.(isPinned := false)
  }

  lemma PinIdempotent(t: Thread)
    ensures Pin(Pin(t)) == Pin(t)
    ensures Unpin(Unpin(t)) == Unpin(t)
  {
  }

  /** The `forUser` scope: exactly the threads with a member row for the user. */
  function ForUser(ts: seq<Thread>, ms: seq<ThreadMember>, userId: int): (r: seq<Thread>)
    ensures forall t :: t in r <==> t in ts && HasMember(ms, t.id, userId)
  {
    var keep := (t: Thread) => HasMember(ms, t.id, userId);
    FilterContents(ts, keep);
    Filter(ts, keep)
  }

  /** The `forResource` scope. */
  function ForResource(ts: seq<Thread>, kind: string, id: int): (r: seq<Thread>)
    ensures forall t :: t in r <==> t in ts && t.threadableType == Some(kind) && t.threadableId == Some(id)
  {
    var keep := (t: Thread) => t.threadableType == Some(kind) && t.threadableId == Some(id);
    FilterContents(ts, keep);
    Filter(ts, keep)
  }

  /** The `pinned` scope. */
  function PinnedOnly(ts: seq<Thread>): (r: seq<Thread>)
    ensures forall t :: t in r <==> t in ts && t.isPinned
  {
    var keep := (t: Thread) => t.isPinned;
    FilterContents(ts, keep);
    Filter(ts, keep)
  }
}

=== FILE: thread_builder.dfy ===
/** The fluent thread builder: setters that accumulate a thread's fields and
    member list, and `create`, which hands them to the manager service. */
module ThreadBuilder {
  import opened Common
  import opened ThreadRole
  import opened Members
  import opened Threads
  import HubManager

  /** The builder's fields. */
  datatype Draft = Draft(
    threadableType: Option<string>,
    threadableId: Option<int>,
    title: Option<string>,
    isPinned: bool,
    members: seq<int>,
    metadata: Metadata,
    createdBy: Option<int>)

  /** A builder as constructed: no resource, no title, not pinned, no
      members, no metadata, no creator. */
  function New(): (d: Draft)
    ensures d.threadableType.None? && d.threadableId.None? && d.title.None?
    ensures !d.isPinned && d.members == [] && d.metadata == map[] && d.createdBy.None?
  {
    Draft(None, None, None, false, [], map[], None)
  }

  /** `on`: attaches the thread to a resource of the given class and id. */
  function On(d: Draft, kind: string, id: int): (c: Draft)
    ensures c.threadableType == Some(kind) && c.threadableId == Some(id)
    ensures c.(threadableType := d.threadableType, threadableId := d.threadableId) == d
  {
    d.(threadableType := Some(kind), threadableId := Some(id))
  }

  function Title(d: Draft, title: string): (c: Draft)
    ensures c.title == Some(title) && c.(title := d.title) == d
  {
    d.(title := Some(title))
  }

  /** `members`: the list is replaced verbatim, duplicates included. */
  function SetMembers(d: Draft, userIds: seq<int>): (c: Draft)
    ensures c.members == userIds && c.(members := d.members) == d
  {
    d.(members := userIds)
  }

  /** `addMember`: the user is appended only when not listed yet. */
  function AddMember(d: Draft, userId: int): (c: Draft)
    ensures userId in c.members
    ensures forall u :: u in c.members <==> u in d.members || u == userId
    ensures userId in d.members ==> c == d
    ensures Distinct(d.members) ==> Distinct(c.members)
    ensures c.(members := d.members) == d
  {
    d.(members := AppendIfAbsent(d.members, userId))
  }

  /** `addMember` for each user in turn: on a duplicate-free list the result
      stays free of duplicates and lists exactly the users seen so far;
      nothing else changes. */
  function AddMembers(d: Draft, userIds: seq<int>): (c: Draft)
    ensures Distinct(d.members) ==> Distinct(c.members)
    ensures forall u :: u in c.members <==> u in d.members || u in userIds
    ensures c.(members := d.members) == d
    decreases |userIds|
  {
    if |userIds| == 0 then d
    else
      assert forall u :: u in userIds <==> u == userIds[0] || u in userIds[1..] by {
        assert userIds == [userIds[0]] + userIds[1..];
      }
      AddMembers(AddMember(d, userIds[0]), userIds[1..])
  }

  /** `pinned`. */
  function Pinned(d: Draft): (c: Draft)
    ensures c.isPinned && c.(isPinned := d.isPinned) == d
  {
    d.(isPinned := true)
  }

  /** `metadata`: the whole bag is replaced. */
  function SetMetadata(d: Draft, data: Metadata): (c: Draft)
    ensures c.metadata == data && c.(metadata := d.metadata) == d
  {
    d.(metadata := data)
  }

  /** `with`: one key is set, the rest of the bag is kept. */
  function With(d: Draft, key: string, value: MetaValue): (c: Draft)
    ensures c.metadata == WithKey(d.metadata, key, value) && c.(metadata := d.metadata) == d
    ensures key in c.metadata && c.metadata[key] == value
  {
    d.(metadata := WithKey(d.metadata, key, value))
  }

  /** `metadata` after `with` discards the key `with` set. */
  lemma MetadataReplacesWith(d: Draft, key: string, value: MetaValue, data: Metadata)
    ensures SetMetadata(With(d, key, value), data) == SetMetadata(d, data)
  {
  }

  /** `by`: sets the creator. */
  function By(d: Draft, userId: int): (c: Draft)
    ensures c.createdBy == Some(userId) && c.(createdBy := d.createdBy) == d
  {
    d.(createdBy := Some(userId))
  }

  /** The data array `create` passes to the manager. */
  function Input(d: Draft): HubManager.ThreadInput {
    HubManager.ThreadInput(d.threadableType, d.threadableId, d.title, Some(d.isPinned),
                           Some(d.metadata), d.createdBy, d.members)
  }

  /** `create`: the thread takes the accumulated fields unchanged, and the
      creator and every listed user become members of it. */
  function Create(d: Draft, ms: seq<ThreadMember>, id: nat, refid: string, notify: bool, now: Time)
    : (c: HubManager.CreatedThread)
    ensures c.thread == Thread(id, refid, d.threadableType, d.threadableId, d.title, d.isPinned, d.metadata, d.createdBy)
    ensures forall u :: u in d.members ==> HasMember(c.members, id, u)
    ensures d.createdBy.Some? ==> HasMember(c.members, id, d.createdBy.value)
    ensures forall t, u :: t != id ==> (HasMember(c.members, t, u) <==> HasMember(ms, t, u))
    ensures MembersUnique(ms) ==> MembersUnique(c.members)
  {
    HubManager.CreateThread(ms, id, refid, Input(d), notify, now)
  }

  /** Creating from a fresh builder adds a thread with the defaults and no
      member row at all. */
  lemma NewDraftCreatesBareThread(ms: seq<ThreadMember>, id: nat, refid: string, notify: bool, now: Time)
    ensures Create(New(), ms, id, refid, notify, now).thread == Thread(id, refid, None, None, None, false, map[], None)
    ensures forall t, u :: HasMember(Create(New(), ms, id, refid, notify, now).members, t, u) <==> HasMember(ms, t, u)
  {
  }

  /** Listing the creator among the members does not demote them: in a new
      thread the creator is the owner. */
  lemma CreatorListedStaysOwner(d: Draft, ms: seq<ThreadMember>, id: nat, refid: string, notify: bool, now: Time, creator: int)
    requires HubManager.NoRowsFor(ms, id)
    ensures var m := GetMember(Create(AddMember(By(d, creator), creator), ms, id, refid, notify, now).members, id, creator);
            m.Some? && IsOwner(m.value)
  {
    HubManager.CreatorIsOwner(ms, id, refid, Input(AddMember(By(d, creator), creator)), notify, now);
  }
}

=== FILE: thread_member.dfy ===
/** One row of `hub_member`: a user's membership of a thread. */
module Members {
  import opened Common
  import opened ThreadRole

  /** `role` is nullable in the record, and the permission checks treat a
      missing role as having no permission. */
  datatype ThreadMember = ThreadMember(
    threadId: nat,
    userId: int,
    role: Option<Role>,
    lastReadAt: Option<Time>,
    notificationsEnabled: bool,
    joinedAt: Option<Time>)

  /** The member holds the role that may delete the thread. */
  function IsOwner(m: ThreadMember): (b: bool)
    ensures b <==> m.role.Some? && CanDeleteThread(m.role.value)
  {
    m.role == Some(Owner)
  }

  /** The member may manage members without being able to delete the thread. */
  function IsAdmin(m: ThreadMember): (b: bool)
    ensures b <==> m.role.Some? && CanManageMembers(m.role.value) && !CanDeleteThread(m.role.value)
    ensures b ==> !IsOwner(m)
  {
    m.role == Some(Admin)
  }

  /** `canManage`: the role may manage members; no role, no permission. */
  function CanManage(m: ThreadMember): (b: bool)
    ensures b <==> IsOwner(m) || IsAdmin(m)
    ensures m.role.None? ==> !b
  {
    match m.role
    case Some(r) => CanManageMembers(r)
    case None => false
  }

  /** `markAsRead`: only the read marker moves, to `now`. */
  function MarkAsRead(m: ThreadMember, now: Time): (c: ThreadMember)
    ensures c.lastReadAt == Some(now)
    ensures c.(lastReadAt := m.lastReadAt) == m
  {
    m.(lastReadAt := Some(now))
  }

  /** `toggleNotifications`: only the flag changes, to its negation. */
  function ToggleNotifications(m: ThreadMember): (c: ThreadMember)
    ensures c.notificationsEnabled != m.notificationsEnabled
    ensures c.(notificationsEnabled := m.notificationsEnabled) == m
  {
    m.(notificationsEnabled := !m.notificationsEnabled)
  }

  lemma ToggleTwice(m: ThreadMember)
    ensures ToggleNotifications(ToggleNotifications(m)) == m
  {
  }

  /** `setRole`: only the role changes. */
  function SetRole(m: ThreadMember, role: Role): (c: ThreadMember)
    ensures c.role == Some(role)
    ensures c.(role := m.role) == m
    ensures IsOwner(c) <==> role == Owner
    ensures CanManage(c) <==> CanManageMembers(role)
  {
    m.(role := Some(role))
  }
}

=== FILE: thread_role.dfy ===
/** The role of a member within a thread (`hub_member.role`). */
module ThreadRole {
  import opened Common

  datatype Role = Owner | Admin | Member | Guest

  function Value(r: Role): string {
    match r
    case Owner => "owner"
    case Admin => "admin"
    case Member => "member"
    case Guest => "guest"
  }

  /** `ThreadRole::tryFrom`. */
  function From(text: string): (r: Option<Role>)
    ensures r.Some? ==> Value(r.value) == text
    ensures r.None? <==> forall x: Role :: Value(x) != text
  {
    if text == "owner" then Some(Owner)
    else if text == "admin" then Some(Admin)
    else if text == "member" then Some(Member)
    else if text == "guest" then Some(Guest)
    else None
  }

  lemma FromValue(r: Role)
    ensures From(Value(r)) == Some(r)
  {
  }

  lemma ValueInjective(a: Role, b: Role)
    ensures Value(a) == Value(b) ==> a == b
  {
    FromValue(a);
    FromValue(b);
  }

  function Label(r: Role): (l: string)
    ensures |l| > 0
  {
    match r
    case Owner => "Owner"
    case Admin => "Admin"
    case Member => "Member"
    case Guest => "Guest"
  }

  lemma LabelInjective(a: Role, b: Role)
    ensures Label(a) == Label(b) ==> a == b
  {
  }

  /** Members and guests may not manage members; every other role may. */
  function CanManageMembers(r: Role): (b: bool)
    ensures !b <==> r == Member || r == Guest
  {
    r == Owner || r == Admin
  }

  /** Deleting a thread is the stronger permission: whoever holds it may also
      manage members, and the admin alone manages without deleting. */
  function CanDeleteThread(r: Role): (b: bool)
    ensures b ==> CanManageMembers(r)
    ensures CanManageMembers(r) && !b <==> r == Admin
  {
    r == Owner
  }
}
